=== FILE: README.md ===
# regexvm core in Dafny

This project models the bytecode regular-expression engine of `src/regex.js`:

- the size estimator `_countInstrRequired`;
- the compiler `compile` with its inner `compileRec`;
- the backtracking machine `_threadedMachine`;
- the scanner `execute`.

It proves properties of that model. The compiler turns a parsed pattern tree into a flat list of
instructions. Forward Split and Jump targets are computed with the estimator before the code they
skip exists. Capture groups are numbered with a running counter. The machine tries one start
offset with an explicit LIFO pool of threads `(pc, sp, groups)`. The scanner runs it from every
offset and collects non-overlapping `[start, end]` pairs.

Modules, in dependency order:

| module | file | contents |
|---|---|---|
| `Base` | base.dfy | `Option`, `Result`, and `Variant` (see below) |
| `Pattern` | pattern.dfy | the pattern tree `Node`, the estimator `Count`/`CountNode`, per-node tree properties |
| `Bytecode` | bytecode.dfy | the instruction set `Instr`, target closure `Closed`, capture-index bookkeeping `Marks`/`Numbered`/`ClosesOpened` |
| `Compiler` | compiler.dfy | `CompileSeq`/`CompileNode`, one block function per node shape, `Compile` |
| `CompilerLayout` | compiler_layout.dfy | compiled length equals the estimate; targets stay in the block; Match only at the end |
| `CompilerCaptures` | compiler_captures.dfy | capture numbering of compiled code |
| `Machine` | machine.dfy | threads, capture slots, `Step`, the fuel-bounded `Run`, `Attempt`, and their properties |
| `Scanner` | scanner.dfy | `ScanFrom`/`Execute` and their properties |
| `Engine` | engine.dfy | compiler, machine and scanner together; literal patterns end to end |
| `Examples` | examples.dfy | concrete patterns showing each defect under "Findings" and its correction |

**Two variants.** The source has five defects, listed under "Findings". Every operation takes a
`Variant`:

- `AsWritten` models the source line by line, defects included.
- `Corrected` makes the smallest change that removes each defect:
  - a repetition's Split skips to the absolute end of its block;
  - a tree with a reversed repetition such as `{3,2}` is refused with `ReversedBounds`;
  - `{min,}` emits a `t*` loop after its `min` copies;
  - the machine also runs a thread that has reached the end of the text;
  - closing a group copies its slot instead of appending to a shared one.

Nothing else differs. Each general theorem states the variant it holds for. Most hold for both.

**Captures.** `groups` in the source is an array of arrays. A Split copies only the outer array
(`[...groups]`), and EndCapture then `push`es onto an inner array the copies share. The model
keeps this sharing exactly: a thread's table maps a capture index to a slot id, and the machine
state holds the slots.

**Termination.** A star over a zero-width term makes the source loop forever. The machine
therefore runs on explicit `fuel`. An attempt that has not halted when the fuel runs out ends in
`OutOfFuel`, and a scan that meets one ends in `FuelExhausted`.

**Where the repository disagrees with itself.** The model follows the code of `src/regex.js`:

- The comment on `execute` (src/regex.js:159) promises all non-overlapping matches. The loop
  at src/regex.js:169 tries start offsets `0 .. length-1` only. An empty match at the end of
  the text is therefore never reported, and the model does the same.
- The estimate for `{min,}` (src/regex.js:55) counts `min` copies and a `t*` loop. The
  compiler (src/regex.js:129) emits only the `min` copies. This is the second finding.
- A union counts `L + R + 2` (src/regex.js:46). The tests expect 3 for `a|b`
  (test/regextest.js:31), 4 for `a|b+` (test/regextest.js:60), and a program of length 6 for
  `a|(ab)` (test/regextest.js:68). Following line 46, the model gives 4, 5 and 8
  (`Examples.UnionCounts`).

## Model

| member | source | states |
|---|---|---|
| Pattern.CountConcat | src/regex.js:39-40 | the estimate of a list is additive: `a` followed by `b` counts as `a`'s count plus `b`'s |
| Pattern.BlocksProduct | src/regex.js:55-60 | the repetition formulas' repeated blocks are the products `eCount * k` the source multiplies |
| Pattern.CountNonNegative | src/regex.js:38-70 | when every bounded repetition has min <= max, no subtree's estimate is negative |
| Pattern.CountNodeNonNegative | src/regex.js:42-68 | the same for a single node, including both repetition formulas |
| Compiler.CompileSeq | src/regex.js:78-80 | a list whose every node has a known tag compiles; capture numbering never goes backwards |
| Compiler.CompileNode | src/regex.js:82-150 | a node compiles whenever every tag in it is known; only the `default` branch throws |
| Compiler.Compile | src/regex.js:154-155 | a supported tree compiles (once corrected, a tree with a reversed repetition is refused instead), and the program always ends in Match |
| CompilerLayout.SeqLayout | src/regex.js:78-80 | a list compiled at address `at` is exactly `Count` instructions long when every repetition in it is sized (bounded with min <= max as written, min <= max once corrected), and its Jump/Split targets lie in `[at, at + Count]` when it is also placed (repetition-free as written) |
| CompilerLayout.NodeLayout | src/regex.js:82-150 | every node shape's code has the estimator's length when its repetitions are sized (bounded with min <= max as written, min <= max once corrected), and its targets lie inside its block when it is also placed (repetition-free as written) |
| CompilerLayout.UnionLayout | src/regex.js:88-99 | a union is `Count(l) + 2 + Count(r)` long, and with placed operands its Split, its Jump and every operand target lie in `[at, at + L + 2 + R]` |
| CompilerLayout.PlusLayout | src/regex.js:101-106 | `t+` is `N + 1` long and its trailing Split targets lie in `[at, at+N+1]` |
| CompilerLayout.StarLayout | src/regex.js:108-115 | `t*` is `N + 2` long, and its Split, its back-Jump and the body's targets lie in `[at, at+N+2]` |
| CompilerLayout.QuestLayout | src/regex.js:117-122 | `t?` is `N + 1` long and its Split targets lie in `[at, at+N+1]` |
| CompilerLayout.MarkedLayout | src/regex.js:136-142 | `(t)` is `N + 2` long and the body's targets stay inside it |
| CompilerLayout.RepLayout | src/regex.js:124-134 | a repetition's code has the estimator's length (bounded as written; any min <= max once corrected), and once corrected its targets stay in its block |
| CompilerLayout.RepTailLayout | src/regex.js:129-133 | after the `min` copies, the optional part fills exactly the rest of the estimate, and once corrected its targets stay between its own start and the end of the whole repetition |
| CompilerLayout.CopiesLayout | src/regex.js:126-128 | `k` mandatory copies take `k * N` instructions and stay inside their span |
| CompilerLayout.OptionalLayout | src/regex.js:129-133 | `k` guarded copies take `k * (N + 1)` instructions, and with a skip target at or past their end all targets stay in `[at, skip]` |
| CompilerLayout.SeqMatchFree | src/regex.js:78-150 | no block the recursive compiler emits contains Match |
| CompilerLayout.ProgramMatchLast | src/regex.js:154-155 | the compiled program's last instruction is Match and no earlier one is |
| CompilerLayout.ProgramLayout | src/regex.js:154-155 | a program compiled from a tree is `Count(tree) + 1` long when its repetitions are sized, and no Jump or Split leaves it when they are placed |
| CompilerLayout.RepSkipTarget | src/regex.js:125-131 | the first optional copy's Split has left target `self+1`; its right target is the block's end if and only if the variant is corrected or the repetition starts at address 0 |
| CompilerLayout.UnboundedRepShortfall | src/regex.js:53-55 | as written, `t{min,}` emits exactly `min * N` instructions, fewer than its estimate `N * (min + 1) + 2` |
| CompilerLayout.ReversedRepMiscount | src/regex.js:56-60 | as written, `t{min,max}` with max < min emits `min * N` instructions, more than its estimate `min * N - (min - max) * (N + 1)` |
| CompilerLayout.CorrectedProgramLayout | src/regex.js:154-155 | once corrected, every program the compiler accepts is `Count(tree) + 1` long and no Jump or Split leaves it, with no condition on the tree |
| CompilerCaptures.SeqCaptures | src/regex.js:136-142 | a compiled list opens captures `cap .. next-1` in program order and closes each exactly once |
| CompilerCaptures.MarkedCaptures | src/regex.js:136-142 | a group takes the counter's current value, and its body is numbered from the next one |
| CompilerCaptures.RepCaptures | src/regex.js:124-134 | every copy of a repeated group gets a fresh capture index |
| CompilerCaptures.SeqOrdered | src/regex.js:136-142 | in compiled code, every EndCapture follows a StartCapture of the same index |
| CompilerCaptures.ProgramCaptures | src/regex.js:75-77 | a whole program opens captures 0, 1, ..., k-1 in order, closes each exactly once, and closes each only after opening it |
| Machine.Step | src/regex.js:194-247 | a step keeps every capture table entry pointing at an existing, non-empty slot |
| Machine.StepBounds | src/regex.js:201-246 | no step moves a thread before the start, none moves one past the text, and a reported match ends at or after `start - 1` |
| Machine.RunBounds | src/regex.js:194-249 | a match reached from threads at or after `lo` ends at or after `lo - 1`; as written it ends at least two before the text's length |
| Machine.Attempt | src/regex.js:189-252 | a match from `start` ends between `start - 1` and the last index of the text, and as written at least one index before that |
| Machine.StepPcSafe | src/regex.js:202 | in a closed program, no step leaves a thread at a missing instruction |
| Machine.AttemptPcSafe | src/regex.js:202 | an attempt on a closed program never reads an undefined instruction |
| Machine.BackrefStep | src/regex.js:237-246 | a backreference to group `g` reads slot `g - 1` and advances by the captured length exactly when the text at sp starts with the captured text |
| Machine.LeftBias | src/regex.js:194-228 | Split is greedy-first: when the left alternative reaches Match on its own, the run reports exactly that match |
| Machine.SharedCloseWritten | src/regex.js:226-234 | as written, closing a group also changes the capture a deferred thread split off inside the group will see |
| Machine.CorrectedSlotsPersist | src/regex.js:233-236 | corrected, a step only ever adds capture slots |
| Machine.CapturesStayFixed | src/regex.js:226-234 | corrected, no step changes what any existing thread reads as its captures |
| Scanner.ScanFrom | src/regex.js:169-176 | every recorded span starts at or after `from` and inside the text, ends at or after `start - 1`, and does not end at -1 |
| Scanner.ScanAscending | src/regex.js:172-174 | spans come in increasing order of start, and each starts after the previous one ended, so none overlap |
| Scanner.ScanEndsEarly | src/regex.js:201-205 | as written, no recorded span ends at the text's last character |
| Scanner.ScanReported | src/regex.js:170-172 | each span is exactly the result of the attempt from its start |
| Scanner.ScanLeftmost | src/regex.js:169-176 | no start before the first span (or in the whole range, when there is none) has a match |
| Scanner.ScanComplete | src/regex.js:169-176 | no match is skipped: no start before the first span, between where one span resumes and the next starts, or after the last span has a match |
| Scanner.ScanErrors | src/regex.js:169-176 | a scan fails only for an attempt from a start in range: out of fuel at the reported start, or with the fault that attempt threw; when every attempt halts without throwing, the scan succeeds |
| Scanner.Execute | src/regex.js:165-179 | empty text gives no spans; the spans are in range, ascending and non-overlapping, each is what its attempt reported, and every start the scan passed over has no match; it fails only for a failing attempt, and succeeds when every attempt settles |
| Engine.CompiledProgramClosed | src/regex.js:154-155 | every placed tree compiles to a program that ends in Match and that no Jump or Split leaves |
| Engine.CompiledAttemptPcSafe | src/regex.js:202 | running a compiled placed tree never reads past the program |
| Engine.ScanPcSafe | src/regex.js:169-170 | no scan over a closed program fails on a missing instruction |
| Engine.CompileChars | src/regex.js:83-85 | a literal compiles to one Char instruction per character at any address and uses no capture index |
| Engine.CompileLiteral | src/regex.js:154-155 | a literal's program is its Char instructions followed by Match |
| Engine.LiteralRun | src/regex.js:201-213 | a thread that has matched `k` characters of a literal completes the match exactly when the literal occurs there, with one character to spare as written |
| Engine.AttemptLiteral | src/regex.js:189-205 | an attempt of a literal from `s` matches exactly when the literal occurs at `s` |
| Engine.ScanLiteral | src/regex.js:165-179 | the scan of a literal program equals the reference search for its non-overlapping occurrences, leftmost first |
| Engine.FindLiteral | src/regex.js:165-179 | compiling and executing a literal lists its non-overlapping occurrences left to right; as written it misses one that ends the text |
| Examples.CompileOneChar | src/regex.js:83-85 | a lone character compiles to its Char at any address |
| Examples.OptionalChar | src/regex.js:124-133 | `c{0,1}` at address `at` gets a Split whose right target is 2 as written and `at + 2` once corrected |
| Examples.OptionalSkipCompiled | src/regex.js:124-133 | `ab{0,1}` compiles to `[Char a, Split(2,2), Char b, Match]` as written, `Split(2,3)` once corrected |
| Examples.OptionalSkipWritten | src/regex.js:125-131 | as written, `ab{0,1}` does not match "ac" |
| Examples.OptionalSkipFixed | src/regex.js:125-131 | corrected, `ab{0,1}` matches "a" in "ac" |
| Examples.AtLeastOnce | src/regex.js:124-134 | `c{1,}` compiles to one copy as written, and to one copy plus a `c*` loop once corrected |
| Examples.AtLeastOnceSeq | src/regex.js:53-55 | `c{1,}` is estimated at 4 instructions whatever it compiles to |
| Examples.AtLeastOneOrUnion | src/regex.js:88-99 | the union of `c{1,}` and `d` gets Split(1, 6) from the estimate in both variants |
| Examples.AtLeastOneOrCompiled | src/regex.js:88-99 | the whole program of the union of `c{1,}` and `d` in each variant |
| Examples.AtLeastOneCompiled | src/regex.js:124-134 | the union of `a{1,}` and `b` is five instructions with a target of 6 as written, and eight closed ones once corrected |
| Examples.AtLeastOneWrittenThrows | src/regex.js:202 | as written, the union of `a{1,}` and `b` on "bx" throws for instruction 6 instead of matching |
| Examples.AtLeastOneFixedMatches | src/regex.js:124-134 | corrected, the union of `a{1,}` and `b` matches "b" in "bx" |
| Examples.ReversedOrCompiled | src/regex.js:88-99 | the union of `c{3,2}` and `d` compiles as written with its Split's right target 3 on the third `c`, not on the `d` at 5; once corrected it is refused |
| Examples.ReversedOrWrittenMisses | src/regex.js:225-228 | as written, the union of `a{3,2}` and `b` does not match "b" in "bx" |
| Examples.UnionCounts | src/regex.js:46 | a union is estimated at its operands plus two: `a` or `b` at 4, `a` or `b+` at 5, and `a` or `(ab)` compiles to 8 instructions |
| Examples.LoneAWritten | src/regex.js:201 | as written, `a` does not match "a" |
| Examples.LoneAFixed | src/regex.js:201-205 | corrected, `a` matches "a" with end 0 |
| Examples.LoneAScans | src/regex.js:165-179 | executing `a` on "a" finds nothing as written and `[0, 0]` once corrected |
| Examples.GroupedOptionalCompiled | src/regex.js:136-142 | `(a?)a` compiles to `[StartCapture 0, Split(2,3), Char a, EndCapture 0, Char a, Match]` |
| Examples.GroupedOptionalWritten | src/regex.js:226-234 | as written, `(a?)a` on "ax" reports capture 0 as `[0, 1, 0]`, which reads as "a" although the group matched the empty string |
| Examples.GroupedOptionalFixed | src/regex.js:226-234 | corrected, it reports capture 0 as `[0, 0]` |

## Left out

- Parsing (`parse`, the grammar parser) is not part of this model. The compiler starts from a
  `Node` tree of the shape the parser produces. Bracket classes arrive already expanded to
  unions.
- The constructor and the `re` factory are left out: they only store the pattern and chain
  `parse` and `compile`.
- `compile` called twice appends a second program to `_prog` (src/regex.js:84, 155). The model
  always compiles into an empty program.
- Repetition bounds arrive from the parser as strings. `term['min'] + 1` (src/regex.js:55)
  concatenates them, and `'' - min` (src/regex.js:129) is `-min`, which is never positive. The model takes `min` as a
  `nat` and `max` as `Option<nat>`, with `None` for `''`, and reads both numerically. The
  empty-loop effect of `'' - min` is kept: as written, `{min,}` emits no optional copies.
- Machine.Run: it stops after `fuel` steps with `OutOfFuel`. The source would keep looping, for
  instance under a star over a zero-width term. Every property is stated for the result within
  the fuel.
- Scanner.ScanFrom: an attempt that throws ends the scan with `Threw`, and one that runs out of
  fuel ends it with `FuelExhausted`. The source would propagate the exception or not return.
- Machine.Attempt returns captures as a map from capture index to the slot's positions. The
  source returns the live `groups` array whose inner arrays the machine may still share.
- Compiler.CompileNode: the contract promises success for every tree of known tags, but not the
  converse. A repetition with zero copies never compiles its term, in the source as here, so an
  unknown tag inside it does not throw.
- CompilerLayout.RepLayout: as written, the closure half covers only repetition-free trees. The
  as-written repetition target is a size, and `RepSkipTarget` states exactly when it is right.
- CompilerLayout.ProgramLayout: as written, the length half needs every repetition bounded,
  because `{min,}` falls short of its estimate (`UnboundedRepShortfall`).
- Machine.StepBounds: it states that no thread goes below a common lower bound and none goes past
  the text. It does not state that each thread's own `sp` never decreases, since threads have no
  identity across steps.
- The text is a sequence of UTF-16 code units in the source. The model treats each `char` as one
  unit, so offsets agree with the source only for text in the Basic Multilingual Plane.
- CompilerLayout.SeqLayout: the length half excludes a repetition with min > max. As written,
  such a repetition emits more than its estimate (`ReversedRepMiscount`, the fifth finding).
  Once corrected, such a tree is never compiled. As written, the length half also excludes
  `{min,}`, which emits fewer instructions than its estimate (`UnboundedRepShortfall`). The
  closure half excludes every repetition, whose Split target is a size rather than an address
  (`RepSkipTarget`).
- CompilerLayout.NodeLayout: min > max, and as written `{min,}` for the length half and every
  repetition for the closure half, are excluded for the same reasons as in `SeqLayout`.
- CompilerLayout.RepLayout: min > max is excluded, for the same reason as in `SeqLayout`.
- CompilerLayout.ProgramLayout: min > max is excluded, for the same reason as in `SeqLayout`.
  `CorrectedProgramLayout` needs no condition, because the corrected compiler refuses such trees.
- `src/index.js` (page wiring) is not part of this model.

## Findings

| source | as written | input that shows it | evidently intended | confidence | as-written member | corrected member |
|---|---|---|---|---|---|---|
| src/regex.js:125-131 | an optional copy's Split skips to `_countInstrRequired(ast)`, the repetition's size | `ab{0,1}` on "ac": the Split's right target 2 is the optional `b` itself, so no match | skip to the address after the repetition's block | high (not executed) | CompilerLayout.RepSkipTarget, Examples.OptionalSkipWritten | CompilerLayout.RepSkipTarget, Examples.OptionalSkipFixed |
| src/regex.js:129 | for `{min,}` the loop bound `'' - min` is at most 0, so only the `min` copies are emitted, while line 55 counts `N * (min + 1) + 2` | the union of `a{1,}` and `b` on "bx": reading the bounds as numbers, the union's Split targets 6 in a five-instruction program and the attempt throws (with the parser's string bounds `a{1,}` counts 13 and the target is 15) | `min` copies then a `t*` loop, as the estimate counts | high (not executed) | CompilerLayout.UnboundedRepShortfall, Examples.AtLeastOneWrittenThrows | CompilerLayout.RepLayout, Examples.AtLeastOneFixedMatches |
| src/regex.js:201 | the inner loop runs only while `sp < text.length`, so a thread that consumed the last character is dropped before Match | `a` on "a" finds nothing | run the thread's instruction at the end of the text, where Char and Any fail and Match succeeds | high (not executed) | Scanner.ScanEndsEarly, Examples.LoneAWritten | Engine.FindLiteral, Examples.LoneAFixed |
| src/regex.js:226-234 | Split copies `groups` shallowly and EndCapture `push`es onto the shared inner array, so one alternative's close leaks into another's | `(a?)a` on "ax": capture 0 comes back as `[0, 1, 0]`, the text "a", for a group that matched "" | each alternative keeps its own capture positions | high (not executed) | Machine.SharedCloseWritten, Examples.GroupedOptionalWritten | Machine.CapturesStayFixed, Examples.GroupedOptionalFixed |
| src/regex.js:60, 126-133 | for a repetition with max < min the estimate `eCount * min + (eCount + 1) * (max - min)` is below the `min` copies the compiler emits, since the second loop then runs no times | the union of `a{3,2}` and `b` on "bx": `a{3,2}` counts 1 but compiles to 3, so the union's Split sends the right alternative to the third `a` and "b" is not matched | refuse reversed bounds, as ECMAScript does for `{3,2}` | medium (not executed) | CompilerLayout.ReversedRepMiscount, Examples.ReversedOrWrittenMisses | Compiler.Compile, CompilerLayout.CorrectedProgramLayout |

=== FILE: base.dfy ===
/** Small shared vocabulary: optional values, results with an error side,
    and the two readings of the engine that the rest of the model compares. */
module Base {

  datatype Option<+T> = None | Some(value: T)

  /** A value or an error, usable with `:-`. */
  datatype Result<+T, +E> = Ok(value: T) | Err(error: E) {

    predicate IsFailure() {
      Err?
    }

    function PropagateFailure<U>(): Result<U, E>
      requires Err?
    {
      Err(error)
    }

    function Extract(): T
      requires Ok?
    {
      value
    }
  }

  /** `AsWritten` follows src/regex.js line by line, defects included.
      `Corrected` repairs the defects listed under "Findings" in README.md
      and is otherwise identical. */
  datatype Variant = AsWritten | Corrected
}

=== FILE: bytecode.dfy ===
/** The instruction set of the matching machine and the facts about a block
    of instructions that the compiler proofs talk about. */
module Bytecode {

  /** One instruction. Addresses are absolute indices into the program. */
  datatype Instr =
    | MatchChar(value: char)           // ops.CHAR
    | MatchAny                         // ops.ANY
    | Jump(addr: int)                  // ops.JUMP
    | Split(left: int, right: int)     // ops.SPLIT: run `left` now, `right` later
    | StartCapture(index: nat)         // ops.START_CAPTURE
    | EndCapture(index: nat)           // ops.END_CAPTURE
    | Backref(group: int)              // ops.GROUP: 1-based capture number
    | Match                            // ops.MATCH

  /** Every address `i` can transfer control to lies in [lo, hi]. */
  predicate TargetsWithin(i: Instr, lo: int, hi: int) {
    match i
    case Jump(a) => lo <= a <= hi
    case Split(l, r) => lo <= l <= hi && lo <= r <= hi
    case _ => true
  }

  /** No instruction of `code` transfers control outside [lo, hi]. */
  predicate Closed(code: seq<Instr>, lo: int, hi: int) {
    ClosedFrom(code, 0, lo, hi)
  }

  /** No instruction of `code` at address `i` or later transfers control
      outside [lo, hi]. */
  predicate ClosedFrom(code: seq<Instr>, i: nat, lo: int, hi: int)
    decreases |code| - i
  {
    i >= |code| || (TargetsWithin(code[i], lo, hi) && ClosedFrom(code, i + 1, lo, hi))
  }

  /** `Closed` read at one address. */
  lemma ClosedAt(code: seq<Instr>, lo: int, hi: int, j: int)
    requires Closed(code, lo, hi) && 0 <= j < |code|
    ensures TargetsWithin(code[j], lo, hi)
  {
    ClosedFromAt(code, 0, lo, hi, j);
  }

  lemma {:induction false} ClosedFromAt(code: seq<Instr>, i: nat, lo: int, hi: int, j: int)
    requires ClosedFrom(code, i, lo, hi) && i <= j < |code|
    ensures TargetsWithin(code[j], lo, hi)
    decreases j - i
  {
    if i < j {
      ClosedFromAt(code, i + 1, lo, hi, j);
    }
  }

  lemma ClosedSingle(i: Instr, lo: int, hi: int)
    requires TargetsWithin(i, lo, hi)
    ensures Closed([i], lo, hi)
  {
    assert ClosedFrom([i], 1, lo, hi);
  }

  /** The capture index `i` contributes to `Marks`: its own index when it is
      a StartCapture (`opening`) or an EndCapture (not `opening`). */
  function Mark(i: Instr, opening: bool): seq<nat> {
    if opening && i.StartCapture? then [i.index]
    else if !opening && i.EndCapture? then [i.index]
    else []
  }

  /** The indices of the StartCapture (`opening`) or EndCapture (closing)
      instructions of `code`, in program order. */
  function Marks(code: seq<Instr>, opening: bool): seq<nat> {
    if code == [] then [] else Mark(code[0], opening) + Marks(code[1..], opening)
  }

  /** Every EndCapture(i) is preceded by a StartCapture(i). */
  predicate EndsAfterStarts(code: seq<Instr>) {
    forall j | 0 <= j < |code| && code[j].EndCapture? ::
      exists k | 0 <= k < j :: code[k] == StartCapture(code[j].index)
  }

  /** The ascending run lo, lo+1, ..., hi-1. */
  function Range(lo: nat, hi: nat): (r: seq<nat>)
    ensures |r| == if lo <= hi then hi - lo else 0
    decreases hi - lo
  {
    if lo >= hi then [] else [lo] + Range(lo + 1, hi)
  }

  lemma {:induction false} MarksConcat(a: seq<Instr>, b: seq<Instr>, opening: bool)
    ensures Marks(a + b, opening) == Marks(a, opening) + Marks(b, opening)
  {
    if a == [] {
      assert a + b == b;
    } else {
      assert (a + b)[0] == a[0];
      assert (a + b)[1..] == a[1..] + b;
      MarksConcat(a[1..], b, opening);
      calc {
        Marks(a + b, opening);
        Mark(a[0], opening) + Marks(a[1..] + b, opening);
        Mark(a[0], opening) + (Marks(a[1..], opening) + Marks(b, opening));
        (Mark(a[0], opening) + Marks(a[1..], opening)) + Marks(b, opening);
      }
    }
  }

  lemma {:induction false} RangeSplit(lo: nat, mid: nat, hi: nat)
    requires lo <= mid <= hi
    ensures Range(lo, mid) + Range(mid, hi) == Range(lo, hi)
    decreases mid - lo
  {
    if lo < mid {
      RangeSplit(lo + 1, mid, hi);
      assert Range(lo, mid) + Range(mid, hi) == [lo] + (Range(lo + 1, mid) + Range(mid, hi));
    } else {
      assert Range(lo, mid) == [];
    }
  }

  /** Two blocks closed in sub-ranges of [lo, hi] form a block closed in [lo, hi]. */
  lemma ClosedJoin(a: seq<Instr>, alo: int, ahi: int, b: seq<Instr>, blo: int, bhi: int, lo: int, hi: int)
    requires Closed(a, alo, ahi) && Closed(b, blo, bhi)
    requires lo <= alo && ahi <= hi && lo <= blo && bhi <= hi
    ensures Closed(a + b, lo, hi)
  {
    ClosedJoinRight(a, b, 0, blo, bhi, lo, hi);
    ClosedJoinLeft(a, b, 0, alo, ahi, lo, hi);
  }

  /** From address |a| + i on, `a + b` is `b` from address i on. */
  lemma {:induction false} ClosedJoinRight(a: seq<Instr>, b: seq<Instr>, i: nat, blo: int, bhi: int, lo: int, hi: int)
    requires ClosedFrom(b, i, blo, bhi) && lo <= blo && bhi <= hi
    ensures ClosedFrom(a + b, |a| + i, lo, hi)
    decreases |b| - i
  {
    if i < |b| {
      assert (a + b)[|a| + i] == b[i];
      ClosedJoinRight(a, b, i + 1, blo, bhi, lo, hi);
    }
  }

  /** Below address |a|, `a + b` is `a`. */
  lemma {:induction false} ClosedJoinLeft(a: seq<Instr>, b: seq<Instr>, i: nat, alo: int, ahi: int, lo: int, hi: int)
    requires ClosedFrom(a, i, alo, ahi) && lo <= alo && ahi <= hi && i <= |a|
    requires ClosedFrom(a + b, |a|, lo, hi)
    ensures ClosedFrom(a + b, i, lo, hi)
    decreases |a| - i
  {
    if i < |a| {
      assert (a + b)[i] == a[i];
      ClosedJoinLeft(a, b, i + 1, alo, ahi, lo, hi);
    }
  }

  /** `code` opens captures cap, cap+1, ..., next-1 in that order and
      closes each of them exactly once. */
  predicate Numbered(code: seq<Instr>, cap: nat, next: nat) {
    && Marks(code, true) == Range(cap, next)
    && multiset(Marks(code, false)) == multiset(Range(cap, next))
  }

  lemma NumberedConcat(a: seq<Instr>, b: seq<Instr>, c0: nat, c1: nat, c2: nat)
    requires c0 <= c1 <= c2
    requires Numbered(a, c0, c1) && Numbered(b, c1, c2)
    ensures Numbered(a + b, c0, c2)
  {
    MarksConcat(a, b, true);
    MarksConcat(a, b, false);
    RangeSplit(c0, c1, c2);
  }

  /** An instruction that neither opens nor closes a capture. */
  lemma NumberedPlain(i: Instr, cap: nat)
    requires !i.StartCapture? && !i.EndCapture?
    ensures Numbered([i], cap, cap)
  {
    assert Marks([i], true) == Mark(i, true) + Marks([], true);
    assert Marks([i], false) == Mark(i, false) + Marks([], false);
  }

  /** A body framed by instructions that neither open nor close captures. */
  lemma NumberedFramed(pre: seq<Instr>, body: seq<Instr>, post: seq<Instr>, cap: nat, next: nat)
    requires |pre| <= 1 && |post| <= 1 && cap <= next
    requires forall j | 0 <= j < |pre| :: !pre[j].StartCapture? && !pre[j].EndCapture?
    requires forall j | 0 <= j < |post| :: !post[j].StartCapture? && !post[j].EndCapture?
    requires Numbered(body, cap, next)
    ensures Numbered(pre + body + post, cap, next)
  {
    if pre == [] {
      assert Numbered(pre, cap, cap) by {
        assert Marks([], true) == [] && Marks([], false) == [];
      }
    } else {
      NumberedPlain(pre[0], cap);
      assert pre == [pre[0]];
    }
    if post == [] {
      assert Numbered(post, next, next) by {
        assert Marks([], true) == [] && Marks([], false) == [];
      }
    } else {
      NumberedPlain(post[0], next);
      assert post == [post[0]];
    }
    NumberedConcat(pre, body, cap, cap, next);
    NumberedConcat(pre + body, post, cap, next, next);
  }

  lemma MarksSingle(i: Instr, opening: bool)
    ensures Marks([i], opening) == Mark(i, opening)
  {
    assert Marks([i], opening) == Mark(i, opening) + Marks([], opening);
  }

  /** StartCapture(cap), a body numbered from cap+1, EndCapture(cap). */
  lemma NumberedWrap(body: seq<Instr>, cap: nat, next: nat)
    requires cap + 1 <= next && Numbered(body, cap + 1, next)
    ensures Numbered([StartCapture(cap)] + body + [EndCapture(cap)], cap, next)
  {
    WrapOpens(body, cap, next);
    WrapCloses(body, cap, next);
  }

  lemma WrapOpens(body: seq<Instr>, cap: nat, next: nat)
    requires cap + 1 <= next && Marks(body, true) == Range(cap + 1, next)
    ensures Marks([StartCapture(cap)] + body + [EndCapture(cap)], true) == Range(cap, next)
  {
    MarksSingle(StartCapture(cap), true);
    MarksSingle(EndCapture(cap), true);
    MarksConcat([StartCapture(cap)], body, true);
    MarksConcat([StartCapture(cap)] + body, [EndCapture(cap)], true);
    assert Range(cap, next) == [cap] + Range(cap + 1, next);
  }

  lemma WrapCloses(body: seq<Instr>, cap: nat, next: nat)
    requires cap + 1 <= next && multiset(Marks(body, false)) == multiset(Range(cap + 1, next))
    ensures multiset(Marks([StartCapture(cap)] + body + [EndCapture(cap)], false)) == multiset(Range(cap, next))
  {
    var closing := Marks([StartCapture(cap)] + body + [EndCapture(cap)], false);
    WrapClosing(body, cap);
    assert multiset(closing) == multiset(Marks(body, false)) + multiset{cap};
    assert Range(cap, next) == [cap] + Range(cap + 1, next);
    assert multiset(Range(cap, next)) == multiset{cap} + multiset(Range(cap + 1, next));
  }

  /** The EndCapture indices of a wrapped body: the body's, then `cap`. */
  lemma WrapClosing(body: seq<Instr>, cap: nat)
    ensures Marks([StartCapture(cap)] + body + [EndCapture(cap)], false) == Marks(body, false) + [cap]
  {
    MarksSingle(StartCapture(cap), false);
    MarksSingle(EndCapture(cap), false);
    MarksConcat([StartCapture(cap)], body, false);
    MarksConcat([StartCapture(cap)] + body, [EndCapture(cap)], false);
  }

  /** Scanning `code` from the left with the captures in `open` already
      opened, every EndCapture closes an index opened before it. */
  predicate ClosesOpened(code: seq<Instr>, open: set<nat>)
    decreases |code|
  {
    if code == [] then true
    else
      && (code[0].EndCapture? ==> code[0].index in open)
      && ClosesOpened(code[1..], if code[0].StartCapture? then open + {code[0].index} else open)
  }

  /** Having opened more captures never hurts. */
  lemma {:induction false} ClosesOpenedMore(code: seq<Instr>, open: set<nat>, more: set<nat>)
    requires ClosesOpened(code, open) && open <= more
    ensures ClosesOpened(code, more)
    decreases |code|
  {
    if code != [] {
      var i := code[0];
      ClosesOpenedMore(code[1..], if i.StartCapture? then open + {i.index} else open,
                       if i.StartCapture? then more + {i.index} else more);
    }
  }

  lemma {:induction false} ClosesOpenedConcat(a: seq<Instr>, b: seq<Instr>, open: set<nat>)
    requires ClosesOpened(a, open) && ClosesOpened(b, open)
    ensures ClosesOpened(a + b, open)
    decreases |a|
  {
    if a == [] {
      assert a + b == b;
    } else {
      var i := a[0];
      var open' := if i.StartCapture? then open + {i.index} else open;
      assert (a + b)[0] == i && (a + b)[1..] == a[1..] + b;
      ClosesOpenedMore(b, open, open');
      ClosesOpenedConcat(a[1..], b, open');
    }
  }

  /** An EndCapture of an already open index may follow any block. */
  lemma {:induction false} ClosesOpenedThenClose(body: seq<Instr>, open: set<nat>, index: nat)
    requires ClosesOpened(body, open) && index in open
    ensures ClosesOpened(body + [EndCapture(index)], open)
    decreases |body|
  {
    if body == [] {
      assert ClosesOpened([EndCapture(index)][1..], open);
      assert body + [EndCapture(index)] == [EndCapture(index)];
    } else {
      var i := body[0];
      assert (body + [EndCapture(index)])[0] == i;
      assert (body + [EndCapture(index)])[1..] == body[1..] + [EndCapture(index)];
      ClosesOpenedThenClose(body[1..], if i.StartCapture? then open + {i.index} else open, index);
    }
  }

  /** An instruction that closes nothing. */
  lemma ClosesOpenedPlain(i: Instr, open: set<nat>)
    requires !i.EndCapture?
    ensures ClosesOpened([i], open)
  {
    assert [i][0] == i && [i][1..] == [];
    assert ClosesOpened([], if i.StartCapture? then open + {i.index} else open);
  }

  /** StartCapture(cap), a block, EndCapture(cap). */
  lemma ClosesOpenedWrap(body: seq<Instr>, cap: nat)
    requires ClosesOpened(body, {})
    ensures ClosesOpened([StartCapture(cap)] + body + [EndCapture(cap)], {})
  {
    var code := [StartCapture(cap)] + body + [EndCapture(cap)];
    ClosesOpenedMore(body, {}, {cap});
    ClosesOpenedThenClose(body, {cap}, cap);
    assert code[0] == StartCapture(cap) && code[1..] == body + [EndCapture(cap)];
    assert {} + {cap} == {cap};
  }

  /** The scan's verdict in the quantified form: an EndCapture either
      closes an index of `open` or one opened earlier in `code`. */
  lemma {:induction false} ClosesOpenedSound(code: seq<Instr>, open: set<nat>)
    requires ClosesOpened(code, open)
    ensures forall j | 0 <= j < |code| && code[j].EndCapture? ::
      code[j].index in open || exists k | 0 <= k < j :: code[k] == StartCapture(code[j].index)
    decreases |code|
  {
    if code != [] {
      var i := code[0];
      var open' := if i.StartCapture? then open + {i.index} else open;
      ClosesOpenedSound(code[1..], open');
      forall j | 0 <= j < |code| && code[j].EndCapture?
        ensures code[j].index in open || exists k | 0 <= k < j :: code[k] == StartCapture(code[j].index)
      {
        if j > 0 {
          assert code[j] == code[1..][j - 1];
          if code[j].index !in open {
            if code[j].index in open' {
              assert code[0] == StartCapture(code[j].index);
            } else {
              var k :| 0 <= k < j - 1 && code[1..][k] == StartCapture(code[j].index);
              assert code[k + 1] == code[1..][k];
            }
          }
        }
      }
    }
  }
}

=== FILE: compiler.dfy ===
/** The compiler `compile` / `compileRec`: one forward pass over the pattern
    tree that emits instructions, using the estimator `Count` to place
    forward Split/Jump targets before the code they skip exists, and a
    running counter to number capture groups. */
module Compiler {
  import opened Base
  import opened Pattern
  import opened Bytecode

  /** The code a subtree compiles to, and the next unused capture index. */
  datatype Emitted = Emitted(code: seq<Instr>, next: nat)

  /** Why compilation fails: a node tag the compiler does not know, or
      (once corrected) a counted repetition whose min exceeds its max. */
  datatype CompileError = UnsupportedNode(kind: string) | ReversedBounds

  /** Compiles the list `ts` to code that will sit at address `at`, numbering
      its capture groups from `cap`. */
  function CompileSeq(v: Variant, ts: seq<Node>, at: nat, cap: nat): (r: Result<Emitted, CompileError>)
    ensures Supported(ts) ==> r.Ok?
    ensures r.Ok? ==> cap <= r.value.next
    decreases ts, 0
  {
    if ts == [] then Ok(Emitted([], cap))
    else
      var head :- CompileNode(v, ts[0], at, cap);
      var tail :- CompileSeq(v, ts[1..], at + |head.code|, head.next);
      Ok(Emitted(head.code + tail.code, tail.next))
  }

  function CompileNode(v: Variant, n: Node, at: nat, cap: nat): (r: Result<Emitted, CompileError>)
    ensures EveryNode(n, KnownTag) ==> r.Ok?
    ensures r.Ok? ==> cap <= r.value.next
    decreases n, 2
  {
    match n
    case Char(c) => Ok(Emitted([MatchChar(c)], cap))
    case Dot => Ok(Emitted([MatchAny], cap))
    case Group(i) => Ok(Emitted([Backref(i)], cap))
    case Union(l, r) => UnionBlock(v, l, r, at, cap)
    case Plus(t) => PlusBlock(v, t, at, cap)
    case Star(t) => StarBlock(v, t, at, cap)
    case Quest(t) => QuestBlock(v, t, at, cap)
    case Rep(t, lo, hi) => RepBlock(v, t, lo, hi, at, cap)
    case Marked(t) => MarkedBlock(v, t, at, cap)
    case Bracket(t) => CompileSeq(v, t, at, cap)
    case Unsupported(kind) => Err(UnsupportedNode(kind))
  }

  /** `l|r`: Split into the left code or the right code, the left code, a
      Jump over the right code, the right code. Both targets come from the
      estimator. */
  function UnionBlock(v: Variant, l: seq<Node>, r: seq<Node>, at: nat, cap: nat): (res: Result<Emitted, CompileError>)
    ensures Supported(l) && Supported(r) ==> res.Ok?
    ensures res.Ok? ==> cap <= res.value.next
    decreases Union(l, r), 1
  {
    var left :- CompileSeq(v, l, at + 1, cap);
    var jumpAt := at + 1 + |left.code|;
    var right :- CompileSeq(v, r, jumpAt + 1, left.next);
    var code := [Split(at + 1, at + 2 + Count(l))] + left.code + [Jump(jumpAt + 1 + Count(r))] + right.code;
    Ok(Emitted(code, right.next))
  }

  /** `t+`: the code of `t`, then a Split back to its start or onwards. */
  function PlusBlock(v: Variant, t: seq<Node>, at: nat, cap: nat): (r: Result<Emitted, CompileError>)
    ensures Supported(t) ==> r.Ok?
    ensures r.Ok? ==> cap <= r.value.next
    decreases t, 1
  {
    var body :- CompileSeq(v, t, at, cap);
    Ok(Emitted(body.code + [Split(at, at + |body.code| + 1)], body.next))
  }

  /** `t?`: a Split into the code of `t` or past it, then that code. */
  function QuestBlock(v: Variant, t: seq<Node>, at: nat, cap: nat): (r: Result<Emitted, CompileError>)
    ensures Supported(t) ==> r.Ok?
    ensures r.Ok? ==> cap <= r.value.next
    decreases t, 1
  {
    var body :- CompileSeq(v, t, at + 1, cap);
    Ok(Emitted([Split(at + 1, at + 1 + Count(t))] + body.code, body.next))
  }

  /** `t{lo,hi}`: `lo` copies of `t`, then either `hi - lo` optional copies
      or (for `{lo,}`) nothing as written and a `t*` block once corrected. */
  function RepBlock(v: Variant, t: seq<Node>, lo: nat, hi: Option<nat>, at: nat, cap: nat): (r: Result<Emitted, CompileError>)
    ensures Supported(t) ==> r.Ok?
    ensures r.Ok? ==> cap <= r.value.next
    decreases Rep(t, lo, hi), 1
  {
    var mandatory :- Copies(v, t, lo, at, cap);
    var tail :- RepTail(v, t, lo, hi, at, at + |mandatory.code|, mandatory.next);
    Ok(Emitted(mandatory.code + tail.code, tail.next))
  }

  /** What follows the `min` mandatory copies of the repetition that starts
      at `start`: `max-min` optional copies when bounded; nothing as written
      when unbounded, a star-shaped loop once corrected. */
  function RepTail(v: Variant, t: seq<Node>, lo: nat, hi: Option<nat>, start: nat, at: nat, cap: nat): (r: Result<Emitted, CompileError>)
    ensures Supported(t) ==> r.Ok?
    ensures r.Ok? ==> cap <= r.value.next
    decreases Rep(t, lo, hi), 0
  {
    match hi
    case Some(h) =>
      // the right target of every optional copy's Split: the estimator's
      // size of the whole repetition, which is an address only at 0
      var size := CountNode(Rep(t, lo, hi));
      var skip := if v.AsWritten? then size else start + size;
      OptionalCopies(v, t, if lo <= h then h - lo else 0, at, cap, skip)
    case None =>
      if v.AsWritten? then Ok(Emitted([], cap)) else StarBlock(v, t, at, cap)
  }

  /** `(t)`: the capture number `cap` opened, the code of `t` numbered from
      `cap + 1`, the capture closed. */
  function MarkedBlock(v: Variant, t: seq<Node>, at: nat, cap: nat): (r: Result<Emitted, CompileError>)
    ensures Supported(t) ==> r.Ok?
    ensures r.Ok? ==> cap <= r.value.next
    decreases t, 1
  {
    var body :- CompileSeq(v, t, at + 1, cap + 1);
    Ok(Emitted([StartCapture(cap)] + body.code + [EndCapture(cap)], body.next))
  }

  /** `k` back-to-back copies of `t` (the mandatory part of `t{min,max}`). */
  function Copies(v: Variant, t: seq<Node>, k: nat, at: nat, cap: nat): (r: Result<Emitted, CompileError>)
    ensures Supported(t) ==> r.Ok?
    ensures r.Ok? ==> cap <= r.value.next
    decreases t, k
  {
    if k == 0 then Ok(Emitted([], cap))
    else
      var first :- CompileSeq(v, t, at, cap);
      var rest :- Copies(v, t, k - 1, at + |first.code|, first.next);
      Ok(Emitted(first.code + rest.code, rest.next))
  }

  /** `k` optional copies of `t`, each guarded by a Split whose right branch
      goes to `skip`. */
  function OptionalCopies(v: Variant, t: seq<Node>, k: nat, at: nat, cap: nat, skip: int)
    : (r: Result<Emitted, CompileError>)
    ensures Supported(t) ==> r.Ok?
    ensures r.Ok? ==> cap <= r.value.next
    decreases t, k
  {
    if k == 0 then Ok(Emitted([], cap))
    else
      var body :- CompileSeq(v, t, at + 1, cap);
      var rest :- OptionalCopies(v, t, k - 1, at + 1 + |body.code|, body.next, skip);
      Ok(Emitted([Split(at + 1, skip)] + body.code + rest.code, rest.next))
  }

  /** `t*`: Split into the body or past it, the body, a Jump back. */
  function StarBlock(v: Variant, t: seq<Node>, at: nat, cap: nat): (r: Result<Emitted, CompileError>)
    ensures Supported(t) ==> r.Ok?
    ensures r.Ok? ==> cap <= r.value.next
    decreases t, 1
  {
    var body :- CompileSeq(v, t, at + 1, cap);
    Ok(Emitted([Split(at + 1, at + 1 + Count(t) + 1)] + body.code + [Jump(at)], body.next))
  }

  /** The whole program: the tree compiled at address 0 with capture numbering
      from 0, followed by one Match. As written a reversed `{min,max}` is
      compiled like any other (to `min` copies, against an estimate of
      fewer); once corrected the tree is refused up front. */
  function Compile(v: Variant, tree: seq<Node>): (r: Result<seq<Instr>, CompileError>)
    ensures Supported(tree) && (v.AsWritten? || WellFormed(tree)) ==> r.Ok?
    ensures v.Corrected? && !WellFormed(tree) ==> r == Err(ReversedBounds)
    ensures r.Ok? ==> |r.value| >= 1 && r.value[|r.value| - 1] == Match
  {
    if v.Corrected? && !WellFormed(tree) then Err(ReversedBounds)
    else
      var body :- CompileSeq(v, tree, 0, 0);
      Ok(body.code + [Match])
  }
}

=== FILE: compiler_captures.dfy ===
/** Capture numbering of the compiler: the StartCapture indices of a block,
    read in program order, are exactly cap, cap+1, ..., next-1 (so a group
    inside a repetition gets a fresh index for every copy), and each of them
    is closed by exactly one later EndCapture with the same index. */
module CompilerCaptures {
  import opened Base
  import opened Pattern
  import opened Bytecode
  import opened Compiler

  lemma {:induction false} SeqCaptures(v: Variant, ts: seq<Node>, at: nat, cap: nat)
    requires CompileSeq(v, ts, at, cap).Ok?
    ensures Numbered(CompileSeq(v, ts, at, cap).value.code, cap, CompileSeq(v, ts, at, cap).value.next)
    decreases ts, 0
  {
    if ts == [] {
      assert Marks([], true) == [] && Marks([], false) == [];
    } else {
      var head := CompileNode(v, ts[0], at, cap).value;
      var tail := CompileSeq(v, ts[1..], at + |head.code|, head.next).value;
      var r := CompileSeq(v, ts, at, cap).value;
      assert r.code == head.code + tail.code && r.next == tail.next;
      NodeCaptures(v, ts[0], at, cap);
      SeqCaptures(v, ts[1..], at + |head.code|, head.next);
      NumberedJoin(head.code, tail.code, r.code, cap, head.next, tail.next);
    }
  }

  lemma {:induction false} NodeCaptures(v: Variant, n: Node, at: nat, cap: nat)
    requires CompileNode(v, n, at, cap).Ok?
    ensures Numbered(CompileNode(v, n, at, cap).value.code, cap, CompileNode(v, n, at, cap).value.next)
    decreases n, 2
  {
    match n
    case Char(c) => NumberedPlain(MatchChar(c), cap);
    case Dot => NumberedPlain(MatchAny, cap);
    case Group(i) => NumberedPlain(Backref(i), cap);
    case Union(l, r) => UnionCaptures(v, l, r, at, cap);
    case Plus(t) => PlusCaptures(v, t, at, cap);
    case Star(t) => StarCaptures(v, t, at, cap);
    case Quest(t) => QuestCaptures(v, t, at, cap);
    case Rep(t, lo, hi) => RepCaptures(v, t, lo, hi, at, cap);
    case Marked(t) => MarkedCaptures(v, t, at, cap);
    case Bracket(t) => SeqCaptures(v, t, at, cap);
    case Unsupported(_) =>
  }

  lemma {:induction false} UnionCaptures(v: Variant, l: seq<Node>, r: seq<Node>, at: nat, cap: nat)
    requires UnionBlock(v, l, r, at, cap).Ok?
    ensures Numbered(UnionBlock(v, l, r, at, cap).value.code, cap, UnionBlock(v, l, r, at, cap).value.next)
    decreases Union(l, r), 1
  {
    var res := UnionBlock(v, l, r, at, cap).value;
    var left := CompileSeq(v, l, at + 1, cap).value;
    var jumpAt := at + 1 + |left.code|;
    var right := CompileSeq(v, r, jumpAt + 1, left.next).value;
    var split := Split(at + 1, at + 2 + Count(l));
    var jump := Jump(jumpAt + 1 + Count(r));
    assert res.code == [split] + left.code + [jump] + right.code && res.next == right.next;
    SeqCaptures(v, l, at + 1, cap);
    SeqCaptures(v, r, jumpAt + 1, left.next);
    UnionNumbered(split, left.code, jump, right.code, res.code, cap, left.next, right.next);
  }

  lemma UnionNumbered(split: Instr, left: seq<Instr>, jump: Instr, right: seq<Instr>, code: seq<Instr>, c0: nat, c1: nat, c2: nat)
    requires split.Split? && jump.Jump? && c0 <= c1 <= c2
    requires Numbered(left, c0, c1) && Numbered(right, c1, c2)
    requires code == [split] + left + [jump] + right
    ensures Numbered(code, c0, c2)
  {
    NumberedFramed([split], left, [jump], c0, c1);
    NumberedConcat([split] + left + [jump], right, c0, c1, c2);
  }

  lemma NumberedEmpty(code: seq<Instr>, cap: nat)
    requires code == []
    ensures Numbered(code, cap, cap)
  {
    assert Marks([], true) == [] && Marks([], false) == [];
  }

  /** Two numbered blocks one after the other. */
  lemma NumberedJoin(a: seq<Instr>, b: seq<Instr>, code: seq<Instr>, c0: nat, c1: nat, c2: nat)
    requires c0 <= c1 <= c2 && Numbered(a, c0, c1) && Numbered(b, c1, c2) && code == a + b
    ensures Numbered(code, c0, c2)
  {
    NumberedConcat(a, b, c0, c1, c2);
  }

  /** A numbered block between the StartCapture and EndCapture of index
      `cap`. */
  lemma NumberedWrapped(body: seq<Instr>, code: seq<Instr>, cap: nat, next: nat)
    requires cap + 1 <= next && Numbered(body, cap + 1, next)
    requires code == [StartCapture(cap)] + body + [EndCapture(cap)]
    ensures Numbered(code, cap, next)
  {
    NumberedWrap(body, cap, next);
  }

  /** A numbered block with a control instruction before it. */
  lemma NumberedPrefix(i: Instr, body: seq<Instr>, code: seq<Instr>, cap: nat, next: nat)
    requires !i.StartCapture? && !i.EndCapture? && cap <= next
    requires Numbered(body, cap, next) && code == [i] + body
    ensures Numbered(code, cap, next)
  {
    NumberedPlain(i, cap);
    NumberedConcat([i], body, cap, cap, next);
  }

  /** A numbered block with a control instruction after it. */
  lemma NumberedSuffix(body: seq<Instr>, i: Instr, code: seq<Instr>, cap: nat, next: nat)
    requires !i.StartCapture? && !i.EndCapture? && cap <= next
    requires Numbered(body, cap, next) && code == body + [i]
    ensures Numbered(code, cap, next)
  {
    NumberedPlain(i, next);
    NumberedConcat(body, [i], cap, next, next);
  }

  lemma {:induction false} PlusCaptures(v: Variant, t: seq<Node>, at: nat, cap: nat)
    requires PlusBlock(v, t, at, cap).Ok?
    ensures Numbered(PlusBlock(v, t, at, cap).value.code, cap, PlusBlock(v, t, at, cap).value.next)
    decreases t, 1
  {
    var body := CompileSeq(v, t, at, cap).value;
    var r := PlusBlock(v, t, at, cap).value;
    assert r.code == body.code + [Split(at, at + |body.code| + 1)] && r.next == body.next;
    SeqCaptures(v, t, at, cap);
    NumberedSuffix(body.code, Split(at, at + |body.code| + 1), r.code, cap, body.next);
  }

  lemma {:induction false} QuestCaptures(v: Variant, t: seq<Node>, at: nat, cap: nat)
    requires QuestBlock(v, t, at, cap).Ok?
    ensures Numbered(QuestBlock(v, t, at, cap).value.code, cap, QuestBlock(v, t, at, cap).value.next)
    decreases t, 1
  {
    var body := CompileSeq(v, t, at + 1, cap).value;
    var r := QuestBlock(v, t, at, cap).value;
    var split := Split(at + 1, at + 1 + Count(t));
    assert r.code == [split] + body.code && r.next == body.next;
    SeqCaptures(v, t, at + 1, cap);
    NumberedPrefix(split, body.code, r.code, cap, body.next);
  }

  lemma {:induction false} MarkedCaptures(v: Variant, t: seq<Node>, at: nat, cap: nat)
    requires MarkedBlock(v, t, at, cap).Ok?
    ensures Numbered(MarkedBlock(v, t, at, cap).value.code, cap, MarkedBlock(v, t, at, cap).value.next)
    decreases t, 1
  {
    var body := CompileSeq(v, t, at + 1, cap + 1).value;
    var r := MarkedBlock(v, t, at, cap).value;
    assert r.code == [StartCapture(cap)] + body.code + [EndCapture(cap)] && r.next == body.next;
    SeqCaptures(v, t, at + 1, cap + 1);
    NumberedWrapped(body.code, r.code, cap, body.next);
  }

  lemma {:induction false} RepCaptures(v: Variant, t: seq<Node>, lo: nat, hi: Option<nat>, at: nat, cap: nat)
    requires RepBlock(v, t, lo, hi, at, cap).Ok?
    ensures Numbered(RepBlock(v, t, lo, hi, at, cap).value.code, cap, RepBlock(v, t, lo, hi, at, cap).value.next)
    decreases Rep(t, lo, hi), 1
  {
    var r := RepBlock(v, t, lo, hi, at, cap).value;
    var mandatory := Copies(v, t, lo, at, cap).value;
    var q := at + |mandatory.code|;
    var tail := RepTail(v, t, lo, hi, at, q, mandatory.next).value;
    assert r.code == mandatory.code + tail.code && r.next == tail.next;
    CopiesCaptures(v, t, lo, at, cap);
    RepTailCaptures(v, t, lo, hi, at, q, mandatory.next);
    NumberedJoin(mandatory.code, tail.code, r.code, cap, mandatory.next, tail.next);
  }

  lemma {:induction false} RepTailCaptures(v: Variant, t: seq<Node>, lo: nat, hi: Option<nat>, start: nat, at: nat, cap: nat)
    requires RepTail(v, t, lo, hi, start, at, cap).Ok?
    ensures Numbered(RepTail(v, t, lo, hi, start, at, cap).value.code, cap, RepTail(v, t, lo, hi, start, at, cap).value.next)
    decreases Rep(t, lo, hi), 0
  {
    match hi
    case Some(h) =>
      var size := CountNode(Rep(t, lo, hi));
      var skip := if v.AsWritten? then size else start + size;
      OptionalCaptures(v, t, if lo <= h then h - lo else 0, at, cap, skip);
    case None =>
      if v.AsWritten? {
        NumberedEmpty(RepTail(v, t, lo, hi, start, at, cap).value.code, cap);
      } else {
        StarCaptures(v, t, at, cap);
      }
  }

  lemma {:induction false} CopiesCaptures(v: Variant, t: seq<Node>, k: nat, at: nat, cap: nat)
    requires Copies(v, t, k, at, cap).Ok?
    ensures Numbered(Copies(v, t, k, at, cap).value.code, cap, Copies(v, t, k, at, cap).value.next)
    decreases t, k
  {
    if k == 0 {
      NumberedEmpty(Copies(v, t, k, at, cap).value.code, cap);
    } else {
      var first := CompileSeq(v, t, at, cap).value;
      var rest := Copies(v, t, k - 1, at + |first.code|, first.next).value;
      var r := Copies(v, t, k, at, cap).value;
      assert r.code == first.code + rest.code && r.next == rest.next;
      SeqCaptures(v, t, at, cap);
      CopiesCaptures(v, t, k - 1, at + |first.code|, first.next);
      NumberedJoin(first.code, rest.code, r.code, cap, first.next, rest.next);
    }
  }

  lemma {:induction false} OptionalCaptures(v: Variant, t: seq<Node>, k: nat, at: nat, cap: nat, skip: int)
    requires OptionalCopies(v, t, k, at, cap, skip).Ok?
    ensures Numbered(OptionalCopies(v, t, k, at, cap, skip).value.code, cap,
                     OptionalCopies(v, t, k, at, cap, skip).value.next)
    decreases t, k
  {
    var r := OptionalCopies(v, t, k, at, cap, skip).value;
    if k == 0 {
      NumberedEmpty(r.code, cap);
    } else {
      var body := CompileSeq(v, t, at + 1, cap).value;
      var rest := OptionalCopies(v, t, k - 1, at + 1 + |body.code|, body.next, skip).value;
      assert r.code == [Split(at + 1, skip)] + body.code + rest.code && r.next == rest.next;
      SeqCaptures(v, t, at + 1, cap);
      OptionalCaptures(v, t, k - 1, at + 1 + |body.code|, body.next, skip);
      OptionalNumbered(Split(at + 1, skip), body.code, rest.code, r.code, cap, body.next, rest.next);
    }
  }

  /** One optional copy: its Split, its body, then the copies after it. */
  lemma OptionalNumbered(split: Instr, body: seq<Instr>, rest: seq<Instr>, code: seq<Instr>, c0: nat, c1: nat, c2: nat)
    requires split.Split? && c0 <= c1 <= c2
    requires Numbered(body, c0, c1) && Numbered(rest, c1, c2)
    requires code == [split] + body + rest
    ensures Numbered(code, c0, c2)
  {
    NumberedPrefix(split, body, [split] + body, c0, c1);
    NumberedConcat([split] + body, rest, c0, c1, c2);
  }

  lemma {:induction false} StarCaptures(v: Variant, t: seq<Node>, at: nat, cap: nat)
    requires StarBlock(v, t, at, cap).Ok?
    ensures Numbered(StarBlock(v, t, at, cap).value.code, cap, StarBlock(v, t, at, cap).value.next)
    decreases t, 1
  {
    var body := CompileSeq(v, t, at + 1, cap).value;
    var r := StarBlock(v, t, at, cap).value;
    var split := Split(at + 1, at + 1 + Count(t) + 1);
    assert r.code == [split] + body.code + [Jump(at)] && r.next == body.next;
    SeqCaptures(v, t, at + 1, cap);
    NumberedPrefix(split, body.code, [split] + body.code, cap, body.next);
    NumberedSuffix([split] + body.code, Jump(at), r.code, cap, body.next);
  }

  /** The EndCapture of every group the compiler emits comes after the
      group's StartCapture. */
  lemma {:induction false} SeqOrdered(v: Variant, ts: seq<Node>, at: nat, cap: nat)
    requires CompileSeq(v, ts, at, cap).Ok?
    ensures ClosesOpened(CompileSeq(v, ts, at, cap).value.code, {})
    decreases ts, 0
  {
    if ts != [] {
      var head := CompileNode(v, ts[0], at, cap).value;
      var tail := CompileSeq(v, ts[1..], at + |head.code|, head.next).value;
      var r := CompileSeq(v, ts, at, cap).value;
      assert r.code == head.code + tail.code;
      NodeOrdered(v, ts[0], at, cap);
      SeqOrdered(v, ts[1..], at + |head.code|, head.next);
      OrderedJoin(head.code, tail.code, r.code);
    }
  }

  lemma {:induction false} NodeOrdered(v: Variant, n: Node, at: nat, cap: nat)
    requires CompileNode(v, n, at, cap).Ok?
    ensures ClosesOpened(CompileNode(v, n, at, cap).value.code, {})
    decreases n, 2
  {
    match n
    case Union(l, r) => UnionOrdered(v, l, r, at, cap);
    case Plus(t) => PlusOrdered(v, t, at, cap);
    case Star(t) => StarOrdered(v, t, at, cap);
    case Quest(t) => QuestOrdered(v, t, at, cap);
    case Rep(t, lo, hi) => RepOrdered(v, t, lo, hi, at, cap);
    case Marked(t) => MarkedOrdered(v, t, at, cap);
    case Bracket(t) => SeqOrdered(v, t, at, cap);
    case _ =>
  }

  lemma {:induction false} UnionOrdered(v: Variant, l: seq<Node>, r: seq<Node>, at: nat, cap: nat)
    requires UnionBlock(v, l, r, at, cap).Ok?
    ensures ClosesOpened(UnionBlock(v, l, r, at, cap).value.code, {})
    decreases Union(l, r), 1
  {
    var res := UnionBlock(v, l, r, at, cap).value;
    var left := CompileSeq(v, l, at + 1, cap).value;
    var jumpAt := at + 1 + |left.code|;
    var right := CompileSeq(v, r, jumpAt + 1, left.next).value;
    var split := Split(at + 1, at + 2 + Count(l));
    var jump := Jump(jumpAt + 1 + Count(r));
    assert res.code == [split] + left.code + [jump] + right.code;
    SeqOrdered(v, l, at + 1, cap);
    SeqOrdered(v, r, jumpAt + 1, left.next);
    OrderedPrefix(split, left.code, [split] + left.code);
    OrderedSuffix([split] + left.code, jump, [split] + left.code + [jump]);
    OrderedJoin([split] + left.code + [jump], right.code, res.code);
  }

  lemma {:induction false} PlusOrdered(v: Variant, t: seq<Node>, at: nat, cap: nat)
    requires PlusBlock(v, t, at, cap).Ok?
    ensures ClosesOpened(PlusBlock(v, t, at, cap).value.code, {})
    decreases t, 1
  {
    var body := CompileSeq(v, t, at, cap).value;
    var r := PlusBlock(v, t, at, cap).value;
    assert r.code == body.code + [Split(at, at + |body.code| + 1)];
    SeqOrdered(v, t, at, cap);
    OrderedSuffix(body.code, Split(at, at + |body.code| + 1), r.code);
  }

  lemma {:induction false} QuestOrdered(v: Variant, t: seq<Node>, at: nat, cap: nat)
    requires QuestBlock(v, t, at, cap).Ok?
    ensures ClosesOpened(QuestBlock(v, t, at, cap).value.code, {})
    decreases t, 1
  {
    var body := CompileSeq(v, t, at + 1, cap).value;
    var r := QuestBlock(v, t, at, cap).value;
    var split := Split(at + 1, at + 1 + Count(t));
    assert r.code == [split] + body.code;
    SeqOrdered(v, t, at + 1, cap);
    OrderedPrefix(split, body.code, r.code);
  }

  lemma {:induction false} MarkedOrdered(v: Variant, t: seq<Node>, at: nat, cap: nat)
    requires MarkedBlock(v, t, at, cap).Ok?
    ensures ClosesOpened(MarkedBlock(v, t, at, cap).value.code, {})
    decreases t, 1
  {
    var body := CompileSeq(v, t, at + 1, cap + 1).value;
    var r := MarkedBlock(v, t, at, cap).value;
    assert r.code == [StartCapture(cap)] + body.code + [EndCapture(cap)];
    SeqOrdered(v, t, at + 1, cap + 1);
    OrderedWrapped(body.code, r.code, cap);
  }

  lemma {:induction false} RepOrdered(v: Variant, t: seq<Node>, lo: nat, hi: Option<nat>, at: nat, cap: nat)
    requires RepBlock(v, t, lo, hi, at, cap).Ok?
    ensures ClosesOpened(RepBlock(v, t, lo, hi, at, cap).value.code, {})
    decreases Rep(t, lo, hi), 1
  {
    var r := RepBlock(v, t, lo, hi, at, cap).value;
    var mandatory := Copies(v, t, lo, at, cap).value;
    var q := at + |mandatory.code|;
    var tail := RepTail(v, t, lo, hi, at, q, mandatory.next).value;
    assert r.code == mandatory.code + tail.code;
    CopiesOrdered(v, t, lo, at, cap);
    RepTailOrdered(v, t, lo, hi, at, q, mandatory.next);
    OrderedJoin(mandatory.code, tail.code, r.code);
  }

  lemma {:induction false} RepTailOrdered(v: Variant, t: seq<Node>, lo: nat, hi: Option<nat>, start: nat, at: nat, cap: nat)
    requires RepTail(v, t, lo, hi, start, at, cap).Ok?
    ensures ClosesOpened(RepTail(v, t, lo, hi, start, at, cap).value.code, {})
    decreases Rep(t, lo, hi), 0
  {
    match hi
    case Some(h) =>
      var size := CountNode(Rep(t, lo, hi));
      var skip := if v.AsWritten? then size else start + size;
      OptionalOrdered(v, t, if lo <= h then h - lo else 0, at, cap, skip);
    case None =>
      if v.Corrected? {
        StarOrdered(v, t, at, cap);
      }
  }

  lemma {:induction false} CopiesOrdered(v: Variant, t: seq<Node>, k: nat, at: nat, cap: nat)
    requires Copies(v, t, k, at, cap).Ok?
    ensures ClosesOpened(Copies(v, t, k, at, cap).value.code, {})
    decreases t, k
  {
    if k > 0 {
      var first := CompileSeq(v, t, at, cap).value;
      var rest := Copies(v, t, k - 1, at + |first.code|, first.next).value;
      var r := Copies(v, t, k, at, cap).value;
      assert r.code == first.code + rest.code;
      SeqOrdered(v, t, at, cap);
      CopiesOrdered(v, t, k - 1, at + |first.code|, first.next);
      OrderedJoin(first.code, rest.code, r.code);
    }
  }

  lemma {:induction false} OptionalOrdered(v: Variant, t: seq<Node>, k: nat, at: nat, cap: nat, skip: int)
    requires OptionalCopies(v, t, k, at, cap, skip).Ok?
    ensures ClosesOpened(OptionalCopies(v, t, k, at, cap, skip).value.code, {})
    decreases t, k
  {
    if k > 0 {
      var body := CompileSeq(v, t, at + 1, cap).value;
      var rest := OptionalCopies(v, t, k - 1, at + 1 + |body.code|, body.next, skip).value;
      var r := OptionalCopies(v, t, k, at, cap, skip).value;
      assert r.code == [Split(at + 1, skip)] + body.code + rest.code;
      SeqOrdered(v, t, at + 1, cap);
      OptionalOrdered(v, t, k - 1, at + 1 + |body.code|, body.next, skip);
      OrderedPrefix(Split(at + 1, skip), body.code, [Split(at + 1, skip)] + body.code);
      OrderedJoin([Split(at + 1, skip)] + body.code, rest.code, r.code);
    }
  }

  lemma {:induction false} StarOrdered(v: Variant, t: seq<Node>, at: nat, cap: nat)
    requires StarBlock(v, t, at, cap).Ok?
    ensures ClosesOpened(StarBlock(v, t, at, cap).value.code, {})
    decreases t, 1
  {
    var body := CompileSeq(v, t, at + 1, cap).value;
    var r := StarBlock(v, t, at, cap).value;
    var split := Split(at + 1, at + 1 + Count(t) + 1);
    assert r.code == [split] + body.code + [Jump(at)];
    SeqOrdered(v, t, at + 1, cap);
    OrderedPrefix(split, body.code, [split] + body.code);
    OrderedSuffix([split] + body.code, Jump(at), r.code);
  }

  lemma OrderedJoin(a: seq<Instr>, b: seq<Instr>, code: seq<Instr>)
    requires ClosesOpened(a, {}) && ClosesOpened(b, {}) && code == a + b
    ensures ClosesOpened(code, {})
  {
    ClosesOpenedConcat(a, b, {});
  }

  /** An instruction that closes nothing, before a block. */
  lemma OrderedPrefix(i: Instr, body: seq<Instr>, code: seq<Instr>)
    requires !i.EndCapture? && ClosesOpened(body, {}) && code == [i] + body
    ensures ClosesOpened(code, {})
  {
    ClosesOpenedPlain(i, {});
    ClosesOpenedConcat([i], body, {});
  }

  /** An instruction that closes nothing, after a block. */
  lemma OrderedSuffix(body: seq<Instr>, i: Instr, code: seq<Instr>)
    requires !i.EndCapture? && ClosesOpened(body, {}) && code == body + [i]
    ensures ClosesOpened(code, {})
  {
    ClosesOpenedPlain(i, {});
    ClosesOpenedConcat(body, [i], {});
  }

  lemma OrderedWrapped(body: seq<Instr>, code: seq<Instr>, cap: nat)
    requires ClosesOpened(body, {}) && code == [StartCapture(cap)] + body + [EndCapture(cap)]
    ensures ClosesOpened(code, {})
  {
    ClosesOpenedWrap(body, cap);
  }

  /** A whole program opens captures 0, 1, ..., k-1 in program order and
      closes each of them exactly once, after opening it. */
  lemma ProgramCaptures(v: Variant, tree: seq<Node>)
    requires Compile(v, tree).Ok?
    ensures
      var prog := Compile(v, tree).value;
      && Marks(prog, true) == Range(0, |Marks(prog, true)|)
      && multiset(Marks(prog, false)) == multiset(Marks(prog, true))
      && EndsAfterStarts(prog)
  {
    var body := CompileSeq(v, tree, 0, 0).value;
    var prog := Compile(v, tree).value;
    assert prog == body.code + [Match];
    SeqCaptures(v, tree, 0, 0);
    NumberedSuffix(body.code, Match, prog, 0, body.next);
    SeqOrdered(v, tree, 0, 0);
    OrderedSuffix(body.code, Match, prog);
    ClosesOpenedSound(prog, {});
  }
}

=== FILE: compiler_layout.dfy ===
/** Address arithmetic of the compiler: a block compiled at address `at`
    occupies exactly the estimator's count of instructions, and (where the
    compiler places its targets correctly) every Jump and Split target lies
    in [at, at + count]. */
module CompilerLayout {
  import opened Base
  import opened Pattern
  import opened Bytecode
  import opened Compiler

  /** The shape of repetition whose length the estimator predicts: any
      min <= max repetition once corrected, only bounded ones as written
      (the unbounded form emits just its `min` copies). */
  function SizedBy(v: Variant): Property {
    if v.AsWritten? then BoundedOrdered else OrderedBounds
  }

  /** Trees whose compiled length equals their count. */
  predicate Sized(v: Variant, ts: seq<Node>) {
    Every(ts, SizedBy(v))
  }

  /** Trees whose compiled targets stay inside their block: every `Sized`
      tree once corrected, only repetition-free ones as written (the
      repetition's Split target is a size, not an address). */
  predicate Placed(v: Variant, ts: seq<Node>) {
    Sized(v, ts) && (v.AsWritten? ==> RepFree(ts))
  }

  lemma {:induction false} SeqLayout(v: Variant, ts: seq<Node>, at: nat, cap: nat)
    requires CompileSeq(v, ts, at, cap).Ok?
    ensures Sized(v, ts) ==> |CompileSeq(v, ts, at, cap).value.code| == Count(ts)
    ensures Placed(v, ts) ==> Closed(CompileSeq(v, ts, at, cap).value.code, at, at + Count(ts))
    decreases ts, 0
  {
    if ts != [] {
      var code := CompileSeq(v, ts, at, cap).value.code;
      var head := CompileNode(v, ts[0], at, cap).value;
      var tail := CompileSeq(v, ts[1..], at + |head.code|, head.next).value;
      assert code == head.code + tail.code;
      assert Count(ts) == CountNode(ts[0]) + Count(ts[1..]);
      NodeLayout(v, ts[0], at, cap);
      SeqLayout(v, ts[1..], at + |head.code|, head.next);
      JoinClosed(code, head.code, tail.code, at, CountNode(ts[0]), Count(ts[1..]));
      if Sized(v, ts) {
        assert EveryNode(ts[0], SizedBy(v)) && Sized(v, ts[1..]);
        if Placed(v, ts) {
          assert v.AsWritten? ==> EveryNode(ts[0], NoRep) && RepFree(ts[1..]);
        }
      }
    }
  }

  /** Two blocks laid end to end: the lengths add, and targets inside each
      block stay inside the whole. */
  lemma JoinClosed(code: seq<Instr>, a: seq<Instr>, b: seq<Instr>, at: int, na: int, nb: int)
    requires code == a + b
    ensures |a| == na && |b| == nb ==> |code| == na + nb
    ensures |a| == na && |b| == nb && Closed(a, at, at + na) && Closed(b, at + na, at + na + nb) ==>
              Closed(code, at, at + na + nb)
  {
    if |a| == na && |b| == nb && Closed(a, at, at + na) && Closed(b, at + na, at + na + nb) {
      ClosedJoin(a, at, at + na, b, at + na, at + na + nb, at, at + na + nb);
    }
  }

  /** What `NodeLayout` promises about node `n`. */
  predicate NodeLaidOut(v: Variant, n: Node, at: nat, cap: nat)
    requires CompileNode(v, n, at, cap).Ok?
  {
    var code := CompileNode(v, n, at, cap).value.code;
    && (EveryNode(n, SizedBy(v)) ==> |code| == CountNode(n))
    && (EveryNode(n, SizedBy(v)) && (v.AsWritten? ==> EveryNode(n, NoRep)) ==>
          Closed(code, at, at + CountNode(n)))
  }

  lemma {:induction false} NodeLayout(v: Variant, n: Node, at: nat, cap: nat)
    requires CompileNode(v, n, at, cap).Ok?
    ensures NodeLaidOut(v, n, at, cap)
    decreases n, 2
  {
    match n
    case Char(c) => ClosedSingle(MatchChar(c), at, at + 1);
    case Dot => ClosedSingle(MatchAny, at, at + 1);
    case Group(i) => ClosedSingle(Backref(i), at, at + 1);
    case Union(l, r) => UnionLayout(v, l, r, at, cap);
    case Plus(t) => PlusLayout(v, t, at, cap);
    case Star(t) => StarLayout(v, t, at, cap);
    case Quest(t) => QuestLayout(v, t, at, cap);
    case Rep(t, lo, hi) => RepLayout(v, t, lo, hi, at, cap);
    case Marked(t) => MarkedLayout(v, t, at, cap);
    case Bracket(t) => SeqLayout(v, t, at, cap);
    case Unsupported(_) =>
  }

  /** Union emits Split(at+1, at+2+L), the left code, Jump(at+2+L+R) and the
      right code. */
  lemma {:induction false} UnionLayout(v: Variant, l: seq<Node>, r: seq<Node>, at: nat, cap: nat)
    requires UnionBlock(v, l, r, at, cap).Ok?
    ensures Sized(v, l) && Sized(v, r) ==> |UnionBlock(v, l, r, at, cap).value.code| == Count(l) + 2 + Count(r)
    ensures Placed(v, l) && Placed(v, r) ==>
              Closed(UnionBlock(v, l, r, at, cap).value.code, at, at + Count(l) + 2 + Count(r))
    decreases Union(l, r), 1
  {
    var code := UnionBlock(v, l, r, at, cap).value.code;
    var left := CompileSeq(v, l, at + 1, cap).value;
    var jumpAt := at + 1 + |left.code|;
    var right := CompileSeq(v, r, jumpAt + 1, left.next).value;
    assert code == [Split(at + 1, at + 2 + Count(l))] + left.code + [Jump(jumpAt + 1 + Count(r))] + right.code;
    SeqLayout(v, l, at + 1, cap);
    SeqLayout(v, r, jumpAt + 1, left.next);
    UnionClosed(code, left.code, right.code, at, Count(l), Count(r));
  }

  /** A union laid out from operands of the counted lengths has the
      counted length, and its targets stay inside it when the operands'
      targets stay inside theirs. */
  lemma UnionClosed(code: seq<Instr>, left: seq<Instr>, right: seq<Instr>, at: int, nl: int, nr: int)
    requires code == [Split(at + 1, at + 2 + nl)] + left + [Jump(at + 1 + |left| + 1 + nr)] + right
    ensures |left| == nl && |right| == nr ==> |code| == nl + 2 + nr
    ensures |left| == nl && |right| == nr && Closed(left, at + 1, at + 1 + nl) && Closed(right, at + 2 + nl, at + 2 + nl + nr) ==>
              Closed(code, at, at + 2 + nl + nr)
  {
    var hi := at + 2 + nl + nr;
    var split, jump := [Split(at + 1, at + 2 + nl)], [Jump(hi)];
    if |left| == nl && |right| == nr && Closed(left, at + 1, at + 1 + nl) && Closed(right, at + 2 + nl, hi) {
      ClosedSingle(Split(at + 1, at + 2 + nl), at, hi);
      ClosedSingle(Jump(hi), at, hi);
      ClosedJoin(split, at, hi, left, at + 1, at + 1 + nl, at, hi);
      ClosedJoin(split + left, at, hi, jump, at, hi, at, hi);
      ClosedJoin(split + left + jump, at, hi, right, at + 2 + nl, hi, at, hi);
    }
  }

  /** Plus emits the term's code and then Split(at, at+N+1). */
  lemma {:induction false} PlusLayout(v: Variant, t: seq<Node>, at: nat, cap: nat)
    requires PlusBlock(v, t, at, cap).Ok?
    ensures Sized(v, t) ==> |PlusBlock(v, t, at, cap).value.code| == Count(t) + 1
    ensures Placed(v, t) ==> Closed(PlusBlock(v, t, at, cap).value.code, at, at + Count(t) + 1)
    decreases t, 1
  {
    var code := PlusBlock(v, t, at, cap).value.code;
    var body := CompileSeq(v, t, at, cap).value;
    assert code == body.code + [Split(at, at + |body.code| + 1)];
    SeqLayout(v, t, at, cap);
    PlusClosed(code, body.code, at, Count(t));
  }

  lemma PlusClosed(code: seq<Instr>, body: seq<Instr>, at: int, nb: int)
    requires code == body + [Split(at, at + |body| + 1)]
    ensures |body| == nb ==> |code| == nb + 1
    ensures |body| == nb && Closed(body, at, at + nb) ==> Closed(code, at, at + nb + 1)
  {
    if |body| == nb && Closed(body, at, at + nb) {
      var split := [Split(at, at + nb + 1)];
      ClosedSingle(Split(at, at + nb + 1), at, at + nb + 1);
      ClosedJoin(body, at, at + nb, split, at, at + nb + 1, at, at + nb + 1);
    }
  }

  /** Quest emits Split(at+1, at+1+N) and then the term's code. */
  lemma {:induction false} QuestLayout(v: Variant, t: seq<Node>, at: nat, cap: nat)
    requires QuestBlock(v, t, at, cap).Ok?
    ensures Sized(v, t) ==> |QuestBlock(v, t, at, cap).value.code| == Count(t) + 1
    ensures Placed(v, t) ==> Closed(QuestBlock(v, t, at, cap).value.code, at, at + Count(t) + 1)
    decreases t, 1
  {
    var code := QuestBlock(v, t, at, cap).value.code;
    var body := CompileSeq(v, t, at + 1, cap).value;
    assert code == [Split(at + 1, at + 1 + Count(t))] + body.code;
    SeqLayout(v, t, at + 1, cap);
    QuestClosed(code, body.code, at, Count(t));
  }

  lemma QuestClosed(code: seq<Instr>, body: seq<Instr>, at: int, nb: int)
    requires code == [Split(at + 1, at + 1 + nb)] + body
    ensures |body| == nb ==> |code| == nb + 1
    ensures |body| == nb && Closed(body, at + 1, at + 1 + nb) ==> Closed(code, at, at + 1 + nb)
  {
    if |body| == nb && Closed(body, at + 1, at + 1 + nb) {
      var split := [Split(at + 1, at + 1 + nb)];
      ClosedSingle(Split(at + 1, at + 1 + nb), at, at + 1 + nb);
      ClosedJoin(split, at, at + 1 + nb, body, at + 1, at + 1 + nb, at, at + 1 + nb);
    }
  }

  /** Marked emits StartCapture, the term's code, EndCapture. */
  lemma {:induction false} MarkedLayout(v: Variant, t: seq<Node>, at: nat, cap: nat)
    requires MarkedBlock(v, t, at, cap).Ok?
    ensures Sized(v, t) ==> |MarkedBlock(v, t, at, cap).value.code| == Count(t) + 2
    ensures Placed(v, t) ==> Closed(MarkedBlock(v, t, at, cap).value.code, at, at + Count(t) + 2)
    decreases t, 1
  {
    var code := MarkedBlock(v, t, at, cap).value.code;
    var body := CompileSeq(v, t, at + 1, cap + 1).value;
    assert code == [StartCapture(cap)] + body.code + [EndCapture(cap)];
    SeqLayout(v, t, at + 1, cap + 1);
    MarkedClosed(code, body.code, at, Count(t), cap);
  }

  lemma MarkedClosed(code: seq<Instr>, body: seq<Instr>, at: int, nb: int, cap: nat)
    requires code == [StartCapture(cap)] + body + [EndCapture(cap)]
    ensures |body| == nb ==> |code| == nb + 2
    ensures |body| == nb && Closed(body, at + 1, at + 1 + nb) ==> Closed(code, at, at + nb + 2)
  {
    var hi := at + nb + 2;
    if |body| == nb && Closed(body, at + 1, at + 1 + nb) {
      ClosedSingle(StartCapture(cap), at, hi);
      ClosedSingle(EndCapture(cap), at, hi);
      ClosedJoin([StartCapture(cap)], at, hi, body, at + 1, at + 1 + nb, at, hi);
      ClosedJoin([StartCapture(cap)] + body, at, hi, [EndCapture(cap)], at, hi, at, hi);
    }
  }

  /** A repetition emits `min` copies and then its tail. */
  lemma {:induction false} RepLayout(v: Variant, t: seq<Node>, lo: nat, hi: Option<nat>, at: nat, cap: nat)
    requires RepBlock(v, t, lo, hi, at, cap).Ok?
    ensures EveryNode(Rep(t, lo, hi), SizedBy(v)) ==> |RepBlock(v, t, lo, hi, at, cap).value.code| == CountNode(Rep(t, lo, hi))
    ensures EveryNode(Rep(t, lo, hi), SizedBy(v)) && v.Corrected? ==>
              Closed(RepBlock(v, t, lo, hi, at, cap).value.code, at, at + CountNode(Rep(t, lo, hi)))
    decreases Rep(t, lo, hi), 1
  {
    var n := Rep(t, lo, hi);
    var code := RepBlock(v, t, lo, hi, at, cap).value.code;
    var mandatory := Copies(v, t, lo, at, cap).value;
    var q := at + |mandatory.code|;
    var tail := RepTail(v, t, lo, hi, at, q, mandatory.next).value;
    var m := Blocks(lo, Count(t));
    assert code == mandatory.code + tail.code;
    CopiesLayout(v, t, lo, at, cap);
    RepTailLayout(v, t, lo, hi, at, q, mandatory.next);
    JoinClosed(code, mandatory.code, tail.code, at, m, CountNode(n) - m);
    if EveryNode(n, SizedBy(v)) {
      assert Sized(v, t);
    }
  }

  /** The tail of a repetition fills the rest of the estimator's count:
      `max-min` guarded copies when bounded, and once corrected a star loop
      when unbounded (as written an unbounded repetition is outside
      `SizedBy`). Its Split targets stay inside the repetition once
      corrected. */
  lemma {:induction false} RepTailLayout(v: Variant, t: seq<Node>, lo: nat, hi: Option<nat>, start: nat, at: nat, cap: nat)
    requires RepTail(v, t, lo, hi, start, at, cap).Ok?
    ensures EveryNode(Rep(t, lo, hi), SizedBy(v)) ==>
              |RepTail(v, t, lo, hi, start, at, cap).value.code| == CountNode(Rep(t, lo, hi)) - Blocks(lo, Count(t))
    ensures EveryNode(Rep(t, lo, hi), SizedBy(v)) && v.Corrected? && at == start + Blocks(lo, Count(t)) ==>
              Closed(RepTail(v, t, lo, hi, start, at, cap).value.code, at, start + CountNode(Rep(t, lo, hi)))
    decreases Rep(t, lo, hi), 0
  {
    var n := Rep(t, lo, hi);
    var e := Count(t);
    match hi
    case Some(h) =>
      if EveryNode(n, SizedBy(v)) {
        assert Sized(v, t) && lo <= h;
        var skip := if v.AsWritten? then CountNode(n) else start + CountNode(n);
        assert CountNode(n) == Blocks(lo, e) + Blocks(h - lo, e + 1);
        OptionalLayout(v, t, h - lo, at, cap, skip);
      }
    case None =>
      if v.Corrected? {
        assert CountNode(n) == Blocks(lo, e) + (e + 2);
        StarLayout(v, t, at, cap);
      }
  }

  lemma CopiesLayout(v: Variant, t: seq<Node>, k: nat, at: nat, cap: nat)
    requires Copies(v, t, k, at, cap).Ok?
    ensures Sized(v, t) ==> |Copies(v, t, k, at, cap).value.code| == Blocks(k, Count(t))
    ensures Placed(v, t) ==> Closed(Copies(v, t, k, at, cap).value.code, at, at + Blocks(k, Count(t)))
    decreases t, k + 1
  {
    if Sized(v, t) {
      CopiesSize(v, t, k, at, cap);
      if Placed(v, t) {
        CopiesClosed(v, t, k, at, cap);
      }
    }
  }

  lemma {:induction false} CopiesSize(v: Variant, t: seq<Node>, k: nat, at: nat, cap: nat)
    requires Copies(v, t, k, at, cap).Ok? && Sized(v, t)
    ensures |Copies(v, t, k, at, cap).value.code| == Blocks(k, Count(t))
    decreases t, k
  {
    if k > 0 {
      var first := CompileSeq(v, t, at, cap).value;
      var rest := Copies(v, t, k - 1, at + |first.code|, first.next).value;
      assert Copies(v, t, k, at, cap).value.code == first.code + rest.code;
      SeqLayout(v, t, at, cap);
      CopiesSize(v, t, k - 1, at + |first.code|, first.next);
    }
  }

  lemma {:induction false} CopiesClosed(v: Variant, t: seq<Node>, k: nat, at: nat, cap: nat)
    requires Copies(v, t, k, at, cap).Ok? && Placed(v, t)
    ensures Closed(Copies(v, t, k, at, cap).value.code, at, at + |Copies(v, t, k, at, cap).value.code|)
    decreases t, k
  {
    if k > 0 {
      var code := Copies(v, t, k, at, cap).value.code;
      var first := CompileSeq(v, t, at, cap).value.code;
      var rest := Copies(v, t, k - 1, at + |first|, CompileSeq(v, t, at, cap).value.next).value.code;
      assert code == first + rest;
      SeqLayout(v, t, at, cap);
      CopiesClosed(v, t, k - 1, at + |first|, CompileSeq(v, t, at, cap).value.next);
      ClosedJoin(first, at, at + |first|, rest, at + |first|, at + |code|, at, at + |code|);
    }
  }

  lemma {:induction false} OptionalLayout(v: Variant, t: seq<Node>, k: nat, at: nat, cap: nat, skip: int)
    requires OptionalCopies(v, t, k, at, cap, skip).Ok?
    ensures Sized(v, t) ==> |OptionalCopies(v, t, k, at, cap, skip).value.code| == Blocks(k, Count(t) + 1)
    ensures Placed(v, t) && at + Blocks(k, Count(t) + 1) <= skip ==>
              Closed(OptionalCopies(v, t, k, at, cap, skip).value.code, at, skip)
    decreases t, k
  {
    if k > 0 {
      var e := Count(t);
      var code := OptionalCopies(v, t, k, at, cap, skip).value.code;
      var body := CompileSeq(v, t, at + 1, cap).value;
      var rest := OptionalCopies(v, t, k - 1, at + 1 + |body.code|, body.next, skip).value;
      assert code == [Split(at + 1, skip)] + body.code + rest.code;
      assert Blocks(k, e + 1) == e + 1 + Blocks(k - 1, e + 1);
      SeqLayout(v, t, at + 1, cap);
      OptionalLayout(v, t, k - 1, at + 1 + |body.code|, body.next, skip);
      GuardedClosed(code, body.code, rest.code, at, e, Blocks(k - 1, e + 1), skip);
    }
  }

  /** One optional copy: Split(at+1, skip), the body, then the rest. */
  lemma GuardedClosed(code: seq<Instr>, body: seq<Instr>, rest: seq<Instr>, at: int, nb: int, nr: int, skip: int)
    requires code == [Split(at + 1, skip)] + body + rest
    ensures |body| == nb && |rest| == nr ==> |code| == nb + 1 + nr
    ensures |body| == nb && |rest| == nr && at + nb + 1 + nr <= skip
            && Closed(body, at + 1, at + 1 + nb) && Closed(rest, at + 1 + nb, skip) ==>
              Closed(code, at, skip)
  {
    if |body| == nb && |rest| == nr && at + nb + 1 + nr <= skip
       && Closed(body, at + 1, at + 1 + nb) && Closed(rest, at + 1 + nb, skip) {
      var split := [Split(at + 1, skip)];
      ClosedSingle(Split(at + 1, skip), at, skip);
      ClosedJoin(split, at, skip, body, at + 1, at + 1 + nb, at, skip);
      ClosedJoin(split + body, at, skip, rest, at + 1 + nb, skip, at, skip);
    }
  }

  lemma {:induction false} StarLayout(v: Variant, t: seq<Node>, at: nat, cap: nat)
    requires StarBlock(v, t, at, cap).Ok?
    ensures Sized(v, t) ==> |StarBlock(v, t, at, cap).value.code| == Count(t) + 2
    ensures Placed(v, t) ==> Closed(StarBlock(v, t, at, cap).value.code, at, at + Count(t) + 2)
    decreases t, 1
  {
    var code := StarBlock(v, t, at, cap).value.code;
    var body := CompileSeq(v, t, at + 1, cap).value;
    assert code == [Split(at + 1, at + 1 + Count(t) + 1)] + body.code + [Jump(at)];
    SeqLayout(v, t, at + 1, cap);
    StarClosed(code, body.code, at, Count(t));
  }

  lemma StarClosed(code: seq<Instr>, body: seq<Instr>, at: int, nb: int)
    requires code == [Split(at + 1, at + 1 + nb + 1)] + body + [Jump(at)]
    ensures |body| == nb ==> |code| == nb + 2
    ensures |body| == nb && Closed(body, at + 1, at + 1 + nb) ==> Closed(code, at, at + nb + 2)
  {
    var hi := at + nb + 2;
    if |body| == nb && Closed(body, at + 1, at + 1 + nb) {
      var split := [Split(at + 1, at + 1 + nb + 1)];
      ClosedSingle(Split(at + 1, at + 1 + nb + 1), at, hi);
      ClosedSingle(Jump(at), at, hi);
      ClosedJoin(split, at, hi, body, at + 1, at + 1 + nb, at, hi);
      ClosedJoin(split + body, at, hi, [Jump(at)], at, hi, at, hi);
    }
  }

  /** No block the compiler emits contains Match: only `Compile` adds one. */
  lemma {:induction false} SeqMatchFree(v: Variant, ts: seq<Node>, at: nat, cap: nat)
    requires CompileSeq(v, ts, at, cap).Ok?
    ensures Match !in CompileSeq(v, ts, at, cap).value.code
    decreases ts, 0
  {
    if ts != [] {
      var head := CompileNode(v, ts[0], at, cap).value;
      var code := CompileSeq(v, ts, at, cap).value.code;
      var tail := CompileSeq(v, ts[1..], at + |head.code|, head.next).value;
      assert code == head.code + tail.code;
      NodeMatchFree(v, ts[0], at, cap);
      SeqMatchFree(v, ts[1..], at + |head.code|, head.next);
    }
  }

  lemma {:induction false} NodeMatchFree(v: Variant, n: Node, at: nat, cap: nat)
    requires CompileNode(v, n, at, cap).Ok?
    ensures Match !in CompileNode(v, n, at, cap).value.code
    decreases n, 2
  {
    match n
    case Char(_) =>
    case Dot =>
    case Group(_) =>
    case Union(l, r) => UnionMatchFree(v, l, r, at, cap);
    case Plus(t) => PlusMatchFree(v, t, at, cap);
    case Star(t) => StarMatchFree(v, t, at, cap);
    case Quest(t) => QuestMatchFree(v, t, at, cap);
    case Rep(t, lo, hi) => RepMatchFree(v, t, lo, hi, at, cap);
    case Marked(t) => MarkedMatchFree(v, t, at, cap);
    case Bracket(t) => SeqMatchFree(v, t, at, cap);
  }

  lemma {:induction false} UnionMatchFree(v: Variant, l: seq<Node>, r: seq<Node>, at: nat, cap: nat)
    requires UnionBlock(v, l, r, at, cap).Ok?
    ensures Match !in UnionBlock(v, l, r, at, cap).value.code
    decreases Union(l, r), 1
  {
    var code := UnionBlock(v, l, r, at, cap).value.code;
    var left := CompileSeq(v, l, at + 1, cap).value;
    var jumpAt := at + 1 + |left.code|;
    var right := CompileSeq(v, r, jumpAt + 1, left.next).value;
    assert code == [Split(at + 1, at + 2 + Count(l))] + left.code + [Jump(jumpAt + 1 + Count(r))] + right.code;
    SeqMatchFree(v, l, at + 1, cap);
    SeqMatchFree(v, r, jumpAt + 1, left.next);
  }

  lemma {:induction false} PlusMatchFree(v: Variant, t: seq<Node>, at: nat, cap: nat)
    requires PlusBlock(v, t, at, cap).Ok?
    ensures Match !in PlusBlock(v, t, at, cap).value.code
    decreases t, 1
  {
    var code := PlusBlock(v, t, at, cap).value.code;
    var body := CompileSeq(v, t, at, cap).value;
    assert code == body.code + [Split(at, at + |body.code| + 1)];
    SeqMatchFree(v, t, at, cap);
  }

  lemma {:induction false} QuestMatchFree(v: Variant, t: seq<Node>, at: nat, cap: nat)
    requires QuestBlock(v, t, at, cap).Ok?
    ensures Match !in QuestBlock(v, t, at, cap).value.code
    decreases t, 1
  {
    var code := QuestBlock(v, t, at, cap).value.code;
    var body := CompileSeq(v, t, at + 1, cap).value;
    assert code == [Split(at + 1, at + 1 + Count(t))] + body.code;
    SeqMatchFree(v, t, at + 1, cap);
  }

  lemma {:induction false} MarkedMatchFree(v: Variant, t: seq<Node>, at: nat, cap: nat)
    requires MarkedBlock(v, t, at, cap).Ok?
    ensures Match !in MarkedBlock(v, t, at, cap).value.code
    decreases t, 1
  {
    var code := MarkedBlock(v, t, at, cap).value.code;
    var body := CompileSeq(v, t, at + 1, cap + 1).value;
    assert code == [StartCapture(cap)] + body.code + [EndCapture(cap)];
    SeqMatchFree(v, t, at + 1, cap + 1);
  }

  lemma {:induction false} RepMatchFree(v: Variant, t: seq<Node>, lo: nat, hi: Option<nat>, at: nat, cap: nat)
    requires RepBlock(v, t, lo, hi, at, cap).Ok?
    ensures Match !in RepBlock(v, t, lo, hi, at, cap).value.code
    decreases Rep(t, lo, hi), 1
  {
    var code := RepBlock(v, t, lo, hi, at, cap).value.code;
    var mandatory := Copies(v, t, lo, at, cap).value;
    var q := at + |mandatory.code|;
    var tail := RepTail(v, t, lo, hi, at, q, mandatory.next).value;
    assert code == mandatory.code + tail.code;
    CopiesMatchFree(v, t, lo, at, cap);
    RepTailMatchFree(v, t, lo, hi, at, q, mandatory.next);
  }

  lemma {:induction false} RepTailMatchFree(v: Variant, t: seq<Node>, lo: nat, hi: Option<nat>, start: nat, at: nat, cap: nat)
    requires RepTail(v, t, lo, hi, start, at, cap).Ok?
    ensures Match !in RepTail(v, t, lo, hi, start, at, cap).value.code
    decreases Rep(t, lo, hi), 0
  {
    match hi
    case Some(h) =>
      var size := CountNode(Rep(t, lo, hi));
      var skip := if v.AsWritten? then size else start + size;
      OptionalMatchFree(v, t, if lo <= h then h - lo else 0, at, cap, skip);
    case None =>
      if v.Corrected? {
        StarMatchFree(v, t, at, cap);
      }
  }

  lemma {:induction false} CopiesMatchFree(v: Variant, t: seq<Node>, k: nat, at: nat, cap: nat)
    requires Copies(v, t, k, at, cap).Ok?
    ensures Match !in Copies(v, t, k, at, cap).value.code
    decreases t, k
  {
    if k > 0 {
      var code := Copies(v, t, k, at, cap).value.code;
      var first := CompileSeq(v, t, at, cap).value;
      var rest := Copies(v, t, k - 1, at + |first.code|, first.next).value;
      assert code == first.code + rest.code;
      SeqMatchFree(v, t, at, cap);
      CopiesMatchFree(v, t, k - 1, at + |first.code|, first.next);
    }
  }

  lemma {:induction false} OptionalMatchFree(v: Variant, t: seq<Node>, k: nat, at: nat, cap: nat, skip: int)
    requires OptionalCopies(v, t, k, at, cap, skip).Ok?
    ensures Match !in OptionalCopies(v, t, k, at, cap, skip).value.code
    decreases t, k
  {
    if k > 0 {
      var code := OptionalCopies(v, t, k, at, cap, skip).value.code;
      var body := CompileSeq(v, t, at + 1, cap).value;
      var rest := OptionalCopies(v, t, k - 1, at + 1 + |body.code|, body.next, skip).value;
      assert code == [Split(at + 1, skip)] + body.code + rest.code;
      SeqMatchFree(v, t, at + 1, cap);
      OptionalMatchFree(v, t, k - 1, at + 1 + |body.code|, body.next, skip);
    }
  }

  lemma {:induction false} StarMatchFree(v: Variant, t: seq<Node>, at: nat, cap: nat)
    requires StarBlock(v, t, at, cap).Ok?
    ensures Match !in StarBlock(v, t, at, cap).value.code
    decreases t, 1
  {
    var code := StarBlock(v, t, at, cap).value.code;
    var body := CompileSeq(v, t, at + 1, cap).value;
    assert code == [Split(at + 1, at + 1 + Count(t) + 1)] + body.code + [Jump(at)];
    SeqMatchFree(v, t, at + 1, cap);
  }

  /** The compiled program's last instruction is its only Match. */
  lemma ProgramMatchLast(v: Variant, tree: seq<Node>)
    requires Compile(v, tree).Ok?
    ensures
      var prog := Compile(v, tree).value;
      && |prog| >= 1 && prog[|prog| - 1] == Match
      && forall j | 0 <= j < |prog| - 1 :: prog[j] != Match
  {
    var prog := Compile(v, tree).value;
    var body := CompileSeq(v, tree, 0, 0).value;
    assert prog == body.code + [Match];
    SeqMatchFree(v, tree, 0, 0);
    forall j | 0 <= j < |prog| - 1
      ensures prog[j] != Match
    {
      assert prog[j] == body.code[j];
    }
  }

  /** The compiled program is the estimator's count plus the final Match,
      and no Jump or Split leaves it. */
  lemma ProgramLayout(v: Variant, tree: seq<Node>)
    requires Compile(v, tree).Ok?
    ensures Sized(v, tree) ==> |Compile(v, tree).value| == Count(tree) + 1
    ensures Placed(v, tree) ==> Closed(Compile(v, tree).value, 0, |Compile(v, tree).value| - 1)
  {
    var prog := Compile(v, tree).value;
    var body := CompileSeq(v, tree, 0, 0).value;
    assert prog == body.code + [Match];
    SeqLayout(v, tree, 0, 0);
    if Placed(v, tree) {
      ClosedSingle(Match, 0, Count(tree));
      ClosedJoin(body.code, 0, Count(tree), [Match], 0, Count(tree), 0, Count(tree));
    }
  }

  /** A bounded repetition t{min,max} with min < max: the first optional
      copy starts with a Split whose right target is meant to be the end of
      the repetition's block. Once corrected it always is; as written it is
      only when the repetition sits at address 0. */
  lemma {:induction false} RepSkipTarget(v: Variant, t: seq<Node>, lo: nat, h: nat, at: nat, cap: nat)
    requires lo < h && Sized(v, t)
    requires RepBlock(v, t, lo, Some(h), at, cap).Ok?
    ensures
      var code := RepBlock(v, t, lo, Some(h), at, cap).value.code;
      var k := lo * Count(t);
      && 0 <= k < |code|
      && code[k].Split?
      && code[k].left == at + k + 1
      && (code[k].right == at + |code| <==> v.Corrected? || at == 0)
  {
    var n := Rep(t, lo, Some(h));
    var code := RepBlock(v, t, lo, Some(h), at, cap).value.code;
    var mandatory := Copies(v, t, lo, at, cap).value;
    var q := at + |mandatory.code|;
    var skip := if v.AsWritten? then CountNode(n) else at + CountNode(n);
    var tail := RepTail(v, t, lo, Some(h), at, q, mandatory.next).value;
    assert tail == OptionalCopies(v, t, h - lo, q, mandatory.next, skip).value;
    assert code == mandatory.code + tail.code;
    BlocksProduct(lo, Count(t));
    CopiesLayout(v, t, lo, at, cap);
    assert EveryNode(n, SizedBy(v));
    RepLayout(v, t, lo, Some(h), at, cap);
    assert tail.code[0] == Split(q + 1, skip);
    assert code[|mandatory.code|] == tail.code[0];
  }

  /** As written, t{min,} emits only the `min` mandatory copies, fewer
      instructions than the estimator counts for it. */
  lemma UnboundedRepShortfall(t: seq<Node>, lo: nat, at: nat, cap: nat)
    requires BoundedReps(t)
    requires RepBlock(AsWritten, t, lo, None, at, cap).Ok?
    ensures |RepBlock(AsWritten, t, lo, None, at, cap).value.code| == lo * Count(t)
    ensures |RepBlock(AsWritten, t, lo, None, at, cap).value.code| < CountNode(Rep(t, lo, None))
  {
    var mandatory := Copies(AsWritten, t, lo, at, cap).value;
    assert RepBlock(AsWritten, t, lo, None, at, cap).value.code == mandatory.code + [];
    CopiesLayout(AsWritten, t, lo, at, cap);
    BlocksProduct(lo, Count(t));
    BlocksProduct(lo + 1, Count(t));
    assert Sized(AsWritten, t);
    BoundedIsWellFormed(t);
    CountNonNegative(t);
  }

  /** As written, t{min,max} with max < min emits its `min` mandatory
      copies and no optional one, while the estimator counts `max - min`
      (negative) optional copies of one more instruction each: the block is
      longer than its estimate, by (min - max) * (count(t) + 1). */
  lemma ReversedRepMiscount(t: seq<Node>, lo: nat, h: nat, at: nat, cap: nat)
    requires h < lo && BoundedReps(t)
    requires RepBlock(AsWritten, t, lo, Some(h), at, cap).Ok?
    ensures |RepBlock(AsWritten, t, lo, Some(h), at, cap).value.code| == lo * Count(t)
    ensures CountNode(Rep(t, lo, Some(h))) == lo * Count(t) - (lo - h) * (Count(t) + 1)
    ensures CountNode(Rep(t, lo, Some(h))) < |RepBlock(AsWritten, t, lo, Some(h), at, cap).value.code|
  {
    var mandatory := Copies(AsWritten, t, lo, at, cap).value;
    var skip := CountNode(Rep(t, lo, Some(h)));
    assert RepTail(AsWritten, t, lo, Some(h), at, at + |mandatory.code|, mandatory.next)
        == OptionalCopies(AsWritten, t, 0, at + |mandatory.code|, mandatory.next, skip)
        == Ok(Emitted([], mandatory.next));
    assert RepBlock(AsWritten, t, lo, Some(h), at, cap).value.code == mandatory.code + [];
    CopiesLayout(AsWritten, t, lo, at, cap);
    BlocksProduct(lo, Count(t));
    BlocksProduct(h - lo, Count(t) + 1);
    assert Sized(AsWritten, t);
    BoundedIsWellFormed(t);
    CountNonNegative(t);
  }

  /** Once corrected, every program the compiler accepts has exactly the
      estimated length and keeps all its Jump and Split targets inside
      itself: a tree with a reversed repetition is refused, so no side
      condition on the tree remains. */
  lemma CorrectedProgramLayout(tree: seq<Node>)
    requires Compile(Corrected, tree).Ok?
    ensures |Compile(Corrected, tree).value| == Count(tree) + 1
    ensures Closed(Compile(Corrected, tree).value, 0, |Compile(Corrected, tree).value| - 1)
  {
    assert WellFormed(tree);
    assert Placed(Corrected, tree);
    ProgramLayout(Corrected, tree);
  }

  lemma {:induction false} BoundedIsWellFormed(ts: seq<Node>)
    requires BoundedReps(ts)
    ensures WellFormed(ts)
    decreases ts
  {
    if ts != [] {
      BoundedNodeIsWellFormed(ts[0]);
      BoundedIsWellFormed(ts[1..]);
    }
  }

  lemma {:induction false} BoundedNodeIsWellFormed(n: Node)
    requires EveryNode(n, BoundedOrdered)
    ensures EveryNode(n, OrderedBounds)
    decreases n
  {
    match n
    case Union(l, r) => BoundedIsWellFormed(l); BoundedIsWellFormed(r);
    case Quest(t) => BoundedIsWellFormed(t);
    case Plus(t) => BoundedIsWellFormed(t);
    case Star(t) => BoundedIsWellFormed(t);
    case Rep(t, _, _) => BoundedIsWellFormed(t);
    case Marked(t) => BoundedIsWellFormed(t);
    case Bracket(t) => BoundedIsWellFormed(t);
    case _ =>
  }
}

=== FILE: engine.dfy ===
/** The compiler, the machine and the scanner together: compiled programs
    never send a thread outside themselves, and a literal pattern finds
    exactly the non-overlapping occurrences of the literal, from the left. */
module Engine {
  import opened Base
  import opened Pattern
  import opened Bytecode
  import opened Compiler
  import opened CompilerLayout
  import opened Machine
  import opened Scanner

  /** Every placed tree compiles to a closed program. */
  lemma CompiledProgramClosed(v: Variant, tree: seq<Node>)
    requires Compile(v, tree).Ok? && Placed(v, tree)
    ensures ProgramClosed(Compile(v, tree).value)
  {
    ProgramLayout(v, tree);
  }

  /** An attempt on a compiled placed tree never throws for a missing
      instruction. */
  lemma CompiledAttemptPcSafe(v: Variant, tree: seq<Node>, text: string, start: nat, fuel: nat)
    requires Compile(v, tree).Ok? && Placed(v, tree)
    ensures NotPcFault(Attempt(v, Compile(v, tree).value, text, start, fuel))
  {
    CompiledProgramClosed(v, tree);
    AttemptPcSafe(v, Compile(v, tree).value, text, start, fuel);
  }

  /** No scan over a closed program fails for a missing instruction. */
  lemma {:induction false} ScanPcSafe(v: Variant, prog: seq<Instr>, text: string, from: nat, fuel: nat)
    requires ProgramClosed(prog)
    ensures
      var r := ScanFrom(v, prog, text, from, fuel);
      !(r.Err? && r.error.Threw? && r.error.fault.PcOutOfRange?)
    decreases |text| - from
  {
    if from < |text| {
      var o := Attempt(v, prog, text, from, fuel);
      AttemptPcSafe(v, prog, text, from, fuel);
      if !o.Crashed? && !o.OutOfFuel? {
        if o.End() > -1 {
          ScanPcSafe(v, prog, text, Span(from, o.End()).Resume(), fuel);
        } else {
          ScanPcSafe(v, prog, text, from + 1, fuel);
        }
      }
    }
  }

  /** The pattern tree of a literal string: one Char node per character. */
  function Chars(lit: string): seq<Node> {
    seq(|lit|, i requires 0 <= i < |lit| => Char(lit[i]))
  }

  /** One MatchChar per character. */
  function CharCode(lit: string): seq<Instr> {
    seq(|lit|, i requires 0 <= i < |lit| => MatchChar(lit[i]))
  }

  function LiteralProgram(lit: string): seq<Instr> {
    CharCode(lit) + [Match]
  }

  /** A literal compiles to one MatchChar per character, at any address,
      without using a capture index. */
  lemma {:induction false} CompileChars(v: Variant, lit: string, at: nat, cap: nat)
    ensures CompileSeq(v, Chars(lit), at, cap) == Ok(Emitted(CharCode(lit), cap))
    decreases |lit|
  {
    if lit == [] {
      assert Chars(lit) == [] && CharCode(lit) == [];
    } else {
      var code := [MatchChar(lit[0])];
      assert Chars(lit)[0] == Char(lit[0]);
      assert Chars(lit)[1..] == Chars(lit[1..]);
      assert CompileNode(v, Char(lit[0]), at, cap) == Ok(Emitted(code, cap));
      CompileChars(v, lit[1..], at + 1, cap);
      assert CharCode(lit) == code + CharCode(lit[1..]);
    }
  }

  lemma {:induction false} CharsWellFormed(lit: string)
    ensures WellFormed(Chars(lit))
    decreases |lit|
  {
    if lit != [] {
      assert Chars(lit)[1..] == Chars(lit[1..]);
      CharsWellFormed(lit[1..]);
    }
  }

  lemma CompileLiteral(v: Variant, lit: string)
    ensures Compile(v, Chars(lit)) == Ok(LiteralProgram(lit))
  {
    CharsWellFormed(lit);
    CompileChars(v, lit, 0, 0);
  }

  /** The characters a match must leave after it: one as written, because
      a thread at the end of the text is dropped before Match; none once
      corrected. */
  function Slack(v: Variant): nat {
    if v.AsWritten? then 1 else 0
  }

  /** `lit` occurs at `s` with at least `slack` characters after it. */
  predicate LiteralAt(lit: string, text: string, s: nat, slack: nat) {
    s + |lit| + slack <= |text| && text[s..s + |lit|] == lit
  }

  function LiteralOutcome(lit: string, text: string, s: nat, slack: nat): Outcome {
    if LiteralAt(lit, text, s, slack) then Matched(s + |lit| - 1, map[]) else NoMatch
  }

  /** One step of the thread that has matched `k` characters of the
      literal at `s`. */
  lemma LiteralStep(v: Variant, lit: string, text: string, s: nat, k: nat)
    requires k <= |lit|
    ensures
      var st := Step(v, LiteralProgram(lit), text, Vm(Some(Thread(k, s + k, map[])), [], []));
      var dead := Next(Vm(None, [], []));
      if v.AsWritten? && s + k >= |text| then st == dead
      else if k == |lit| then st == Halt(Matched(s + k - 1, map[]))
      else if s + k < |text| && text[s + k] == lit[k] then st == Next(Vm(Some(Thread(k + 1, s + k + 1, map[])), [], []))
      else st == dead
  {
    var prog := LiteralProgram(lit);
    var t := Thread(k, s + k, map[]);
    if !(v.AsWritten? && s + k >= |text|) {
      if k == |lit| {
        assert prog[k] == Match;
        assert Captures(t, []) == map[];
      } else {
        assert prog[k] == MatchChar(lit[k]);
      }
    }
  }

  /** A thread that has matched the first `k` characters of the literal at
      `s` goes on to match the whole literal exactly when it occurs there
      with the slack the variant needs. */
  lemma {:induction false} LiteralRun(v: Variant, lit: string, text: string, s: nat, k: nat, fuel: nat)
    requires k <= |lit| && s + k <= |text| && text[s..s + k] == lit[..k]
    requires fuel >= |lit| - k + 2
    ensures Run(v, LiteralProgram(lit), text, Vm(Some(Thread(k, s + k, map[])), [], []), fuel)
         == LiteralOutcome(lit, text, s, Slack(v))
    decreases |lit| - k
  {
    var prog := LiteralProgram(lit);
    var dead := Vm(None, [], []);
    assert Step(v, prog, text, dead) == Halt(NoMatch);
    LiteralStep(v, lit, text, s, k);
    if v.AsWritten? && s + k >= |text| {
    } else if k == |lit| {
      assert lit[..k] == lit;
    } else if s + k < |text| && text[s + k] == lit[k] {
      assert text[s..s + k + 1] == lit[..k + 1] by {
        assert text[s..s + k + 1] == text[s..s + k] + [text[s + k]];
        assert lit[..k + 1] == lit[..k] + [lit[k]];
      }
      LiteralRun(v, lit, text, s, k + 1, fuel - 1);
    } else if s + |lit| <= |text| {
      assert text[s..s + |lit|][k] != lit[k];
    }
  }

  /** An attempt of the literal program from `s` reports the occurrence at
      `s` and nothing else. */
  lemma AttemptLiteral(v: Variant, lit: string, text: string, s: nat, fuel: nat)
    requires s <= |text| && fuel >= |lit| + 3
    ensures Attempt(v, LiteralProgram(lit), text, s, fuel) == LiteralOutcome(lit, text, s, Slack(v))
  {
    var prog := LiteralProgram(lit);
    assert Step(v, prog, text, Seed(s)) == Next(Vm(Some(Thread(0, s, map[])), [], []));
    LiteralRun(v, lit, text, s, 0, fuel - 1);
  }

  /** The reference search: the non-overlapping occurrences of a non-empty
      literal at or after `from`, leftmost first, each followed by at least
      `slack` characters. */
  function Occurrences(lit: string, text: string, from: nat, slack: nat): seq<Span>
    requires |lit| >= 1
    decreases |text| - from
  {
    if from >= |text| then []
    else if LiteralAt(lit, text, from, slack) then
      [Span(from, from + |lit| - 1)] + Occurrences(lit, text, from + |lit|, slack)
    else Occurrences(lit, text, from + 1, slack)
  }

  /** The scan of a literal program is the reference search. */
  lemma {:induction false} ScanLiteral(v: Variant, lit: string, text: string, from: nat, fuel: nat)
    requires |lit| >= 1 && fuel >= |lit| + 3
    ensures ScanFrom(v, LiteralProgram(lit), text, from, fuel) == Ok(Occurrences(lit, text, from, Slack(v)))
    decreases |text| - from
  {
    if from < |text| {
      AttemptLiteral(v, lit, text, from, fuel);
      if LiteralAt(lit, text, from, Slack(v)) {
        ScanLiteral(v, lit, text, from + |lit|, fuel);
      } else {
        ScanLiteral(v, lit, text, from + 1, fuel);
      }
    }
  }

  /** End to end: compiling a non-empty literal and executing it on `text`
      lists the literal's non-overlapping occurrences, leftmost first. As
      written an occurrence that ends the text is missed; corrected it is
      found. */
  lemma FindLiteral(v: Variant, lit: string, text: string, fuel: nat)
    requires |lit| >= 1 && fuel >= |lit| + 3
    ensures Compile(v, Chars(lit)) == Ok(LiteralProgram(lit))
    ensures Execute(v, LiteralProgram(lit), text, fuel) == Ok(Occurrences(lit, text, 0, Slack(v)))
  {
    CompileLiteral(v, lit);
    ScanLiteral(v, lit, text, 0, fuel);
  }
}

=== FILE: examples.dfy ===
/** Concrete patterns on which the source as written and the corrected
    engine part ways, one per defect listed under "Findings" in README.md,
    and the left-biased choice of Split on a small union. */
module Examples {
  import opened Base
  import opened Pattern
  import opened Bytecode
  import opened Compiler
  import opened CompilerLayout
  import opened Machine
  import opened Scanner

  /** A thread with no captures. */
  function Fresh(pc: int, sp: nat): Thread {
    Thread(pc, sp, map[])
  }

  /** `ab{0,1}`, i.e. `ab?`. */
  function OptionalB(): seq<Node> {
    [Char('a'), Rep([Char('b')], 0, Some(1))]
  }

  /** A lone character compiles to its MatchChar anywhere. */
  lemma CompileOneChar(v: Variant, c: char, at: nat, cap: nat)
    ensures CompileSeq(v, [Char(c)], at, cap) == Ok(Emitted([MatchChar(c)], cap))
  {
    assert [Char(c)][1..] == [];
    assert CompileNode(v, Char(c), at, cap) == Ok(Emitted([MatchChar(c)], cap));
    assert CompileSeq(v, [], at + 1, cap) == Ok(Emitted([], cap));
    assert [MatchChar(c)] + [] == [MatchChar(c)];
  }

  /** `c?` written `c{0,1}` at address `at`. */
  lemma OptionalChar(v: Variant, c: char, at: nat, cap: nat)
    ensures CompileNode(v, Rep([Char(c)], 0, Some(1)), at, cap)
         == Ok(Emitted([Split(at + 1, if v.AsWritten? then 2 else at + 2), MatchChar(c)], cap))
  {
    var t := [Char(c)];
    var skip := if v.AsWritten? then 2 else at + 2;
    assert t[1..] == [];
    assert Count(t) == 1;
    assert CountNode(Rep(t, 0, Some(1))) == 2;
    CompileOneChar(v, c, at + 1, cap);
    assert [Split(at + 1, skip)] + [MatchChar(c)] + [] == [Split(at + 1, skip), MatchChar(c)];
    assert OptionalCopies(v, t, 0, at + 2, cap, skip) == Ok(Emitted([], cap));
    assert OptionalCopies(v, t, 1, at, cap, skip) == Ok(Emitted([Split(at + 1, skip), MatchChar(c)], cap));
    assert RepTail(v, t, 0, Some(1), at, at, cap) == Ok(Emitted([Split(at + 1, skip), MatchChar(c)], cap));
    assert Copies(v, t, 0, at, cap) == Ok(Emitted([], cap));
    assert [] + [Split(at + 1, skip), MatchChar(c)] == [Split(at + 1, skip), MatchChar(c)];
  }

  function OptionalWritten(): seq<Instr> {
    [MatchChar('a'), Split(2, 2), MatchChar('b'), Match]
  }

  function OptionalFixed(): seq<Instr> {
    [MatchChar('a'), Split(2, 3), MatchChar('b'), Match]
  }

  /** As written the optional copy's Split skips to address 2, the size of
      the repetition, which is the optional copy itself: the `b` cannot be
      skipped, and `ab?` does not match "ac". Corrected, the Split skips to
      the end of the block and the match is "a". */
  lemma OptionalSkipCompiled(v: Variant)
    ensures Compile(v, OptionalB()) == Ok(if v.AsWritten? then OptionalWritten() else OptionalFixed())
  {
    var code := [MatchChar('a'), Split(2, if v.AsWritten? then 2 else 3), MatchChar('b')];
    OptionalBBody(v);
    OptionalBWellFormed();
    assert code + [Match] == if v.AsWritten? then OptionalWritten() else OptionalFixed();
  }

  lemma OptionalBBody(v: Variant)
    ensures CompileSeq(v, OptionalB(), 0, 0) == Ok(Emitted([MatchChar('a'), Split(2, if v.AsWritten? then 2 else 3), MatchChar('b')], 0))
  {
    var rep := Rep([Char('b')], 0, Some(1));
    OptionalChar(v, 'b', 1, 0);
    var tail := [Split(2, if v.AsWritten? then 2 else 3), MatchChar('b')];
    assert OptionalB()[1..] == [rep] && [rep][1..] == [];
    assert CompileSeq(v, [], 3, 0) == Ok(Emitted([], 0));
    assert tail + [] == tail;
    assert CompileSeq(v, [rep], 1, 0) == Ok(Emitted(tail, 0));
    assert [MatchChar('a')] + tail == [MatchChar('a'), Split(2, if v.AsWritten? then 2 else 3), MatchChar('b')];
  }

  lemma OptionalBWellFormed()
    ensures WellFormed(OptionalB())
  {
    var rep := Rep([Char('b')], 0, Some(1));
    assert OptionalB()[1..] == [rep];
    EverySingle(Char('b'), OrderedBounds);
    EverySingle(rep, OrderedBounds);
  }

  /** On "ac" the as-written `ab?` tries `b` on both branches of its Split
      and fails. */
  lemma OptionalSkipWritten(fuel: nat)
    requires fuel >= 7
    ensures Attempt(AsWritten, OptionalWritten(), "ac", 0, fuel) == NoMatch
  {
    OptionalSkipWrittenFrom4(fuel - 4);
    RunNext(AsWritten, OptionalWritten(), "ac", Seed(0), Vm(Some(Fresh(0, 0)), [], []), fuel);
    RunNext(AsWritten, OptionalWritten(), "ac", Vm(Some(Fresh(0, 0)), [], []), Vm(Some(Fresh(1, 1)), [], []), fuel - 1);
    RunNext(AsWritten, OptionalWritten(), "ac", Vm(Some(Fresh(1, 1)), [], []), Vm(Some(Fresh(2, 1)), [Fresh(2, 1)], []), fuel - 2);
    RunNext(AsWritten, OptionalWritten(), "ac", Vm(Some(Fresh(2, 1)), [Fresh(2, 1)], []), Vm(None, [Fresh(2, 1)], []), fuel - 3);
  }

  lemma OptionalSkipWrittenFrom4(fuel: nat)
    requires fuel >= 3
    ensures Run(AsWritten, OptionalWritten(), "ac", Vm(None, [Fresh(2, 1)], []), fuel) == NoMatch
  {
    RunNext(AsWritten, OptionalWritten(), "ac", Vm(None, [Fresh(2, 1)], []), Vm(Some(Fresh(2, 1)), [], []), fuel);
    RunNext(AsWritten, OptionalWritten(), "ac", Vm(Some(Fresh(2, 1)), [], []), Vm(None, [], []), fuel - 1);
    RunHalt(AsWritten, OptionalWritten(), "ac", Vm(None, [], []), NoMatch, fuel - 2);
  }

  /** Corrected, the Split's right branch skips the `b` and `ab?` matches
      "a" in "ac". */
  lemma OptionalSkipFixed(fuel: nat)
    requires fuel >= 6
    ensures Attempt(Corrected, OptionalFixed(), "ac", 0, fuel) == Matched(0, map[])
  {
    OptionalSkipFixedFrom4(fuel - 4);
    RunNext(Corrected, OptionalFixed(), "ac", Seed(0), Vm(Some(Fresh(0, 0)), [], []), fuel);
    RunNext(Corrected, OptionalFixed(), "ac", Vm(Some(Fresh(0, 0)), [], []), Vm(Some(Fresh(1, 1)), [], []), fuel - 1);
    RunNext(Corrected, OptionalFixed(), "ac", Vm(Some(Fresh(1, 1)), [], []), Vm(Some(Fresh(2, 1)), [Fresh(3, 1)], []), fuel - 2);
    RunNext(Corrected, OptionalFixed(), "ac", Vm(Some(Fresh(2, 1)), [Fresh(3, 1)], []), Vm(None, [Fresh(3, 1)], []), fuel - 3);
  }

  lemma OptionalSkipFixedFrom4(fuel: nat)
    requires fuel >= 2
    ensures Run(Corrected, OptionalFixed(), "ac", Vm(None, [Fresh(3, 1)], []), fuel) == Matched(0, map[])
  {
    RunNext(Corrected, OptionalFixed(), "ac", Vm(None, [Fresh(3, 1)], []), Vm(Some(Fresh(3, 1)), [], []), fuel);
    RunHalt(Corrected, OptionalFixed(), "ac", Vm(Some(Fresh(3, 1)), [], []), Matched(0, map[]), fuel - 1);
  }

  /** `a{1,}|b`. */
  function AtLeastOneAOrB(): seq<Node> {
    AtLeastOneOr('a', 'b')
  }

  /** `c{1,}|d`. */
  function AtLeastOneOr(c: char, d: char): seq<Node> {
    [Union([Rep([Char(c)], 1, None)], [Char(d)])]
  }

  function AtLeastOneWritten(): seq<Instr> {
    [Split(1, 6), MatchChar('a'), Jump(4), MatchChar('b'), Match]
  }

  function AtLeastOneFixed(): seq<Instr> {
    [Split(1, 6), MatchChar('a'), Split(3, 5), MatchChar('a'), Jump(2), Jump(7), MatchChar('b'), Match]
  }

  /** The code of `c{1,}` at address `at`: one copy as written, one copy and
      a star-shaped tail once corrected. */
  function AtLeastOnceCode(v: Variant, c: char, at: nat): seq<Instr> {
    if v.AsWritten? then [MatchChar(c)]
    else [MatchChar(c), Split(at + 2, at + 4), MatchChar(c), Jump(at + 1)]
  }

  /** The code of `c{1,}|d` before its final Match. */
  function AtLeastOneOrCode(v: Variant, c: char, d: char): seq<Instr> {
    if v.AsWritten? then [Split(1, 6), MatchChar(c), Jump(4), MatchChar(d)]
    else [Split(1, 6), MatchChar(c), Split(3, 5), MatchChar(c), Jump(2), Jump(7), MatchChar(d)]
  }

  lemma AtLeastOnce(v: Variant, c: char, at: nat, cap: nat)
    ensures CompileNode(v, Rep([Char(c)], 1, None), at, cap) == Ok(Emitted(AtLeastOnceCode(v, c, at), cap))
  {
    var t := [Char(c)];
    assert t[1..] == [];
    assert Count(t) == 1;
    CompileOneChar(v, c, at, cap);
    CompileOneChar(v, c, at + 2, cap);
    assert Copies(v, t, 0, at + 1, cap) == Ok(Emitted([], cap));
    assert [MatchChar(c)] + [] == [MatchChar(c)];
    assert Copies(v, t, 1, at, cap) == Ok(Emitted([MatchChar(c)], cap));
    assert [Split(at + 2, at + 4)] + [MatchChar(c)] + [Jump(at + 1)] == [Split(at + 2, at + 4), MatchChar(c), Jump(at + 1)];
    assert StarBlock(v, t, at + 1, cap) == Ok(Emitted([Split(at + 2, at + 4), MatchChar(c), Jump(at + 1)], cap));
    if v.AsWritten? {
      assert RepTail(v, t, 1, None, at, at + 1, cap) == Ok(Emitted([], cap));
    } else {
      assert RepTail(v, t, 1, None, at, at + 1, cap) == StarBlock(v, t, at + 1, cap);
    }
    assert [MatchChar(c)] + [Split(at + 2, at + 4), MatchChar(c), Jump(at + 1)]
        == [MatchChar(c), Split(at + 2, at + 4), MatchChar(c), Jump(at + 1)];
  }

  /** `c{1,}` alone, as the left operand of a union: estimated at 4
      instructions whatever it compiles to. */
  lemma AtLeastOnceSeq(v: Variant, c: char, at: nat, cap: nat)
    ensures Count([Rep([Char(c)], 1, None)]) == 4
    ensures CompileSeq(v, [Rep([Char(c)], 1, None)], at, cap) == Ok(Emitted(AtLeastOnceCode(v, c, at), cap))
  {
    var rep := Rep([Char(c)], 1, None);
    var code := AtLeastOnceCode(v, c, at);
    AtLeastOnce(v, c, at, cap);
    assert [Char(c)][1..] == [] && [rep][1..] == [];
    assert CompileSeq(v, [], at + |code|, cap) == Ok(Emitted([], cap));
    assert code + [] == code;
    assert CompileSeq(v, [rep], at, cap) == Ok(Emitted(code, cap));
    assert Count([Char(c)]) == 1 && CountNode(rep) == 4;
    assert Count([rep]) == CountNode(rep) + Count([]);
  }

  /** The union `c{1,}|d` at address 0. */
  lemma AtLeastOneOrUnion(v: Variant, c: char, d: char)
    ensures CompileNode(v, AtLeastOneOr(c, d)[0], 0, 0) == Ok(Emitted(AtLeastOneOrCode(v, c, d), 0))
  {
    var l := [Rep([Char(c)], 1, None)];
    var n := Union(l, [Char(d)]);
    var left := AtLeastOnceCode(v, c, 1);
    AtLeastOnceSeq(v, c, 1, 0);
    CompileOneChar(v, d, 2 + |left|, 0);
    assert [Char(d)][1..] == [] && Count([Char(d)]) == 1;
    assert AtLeastOneOr(c, d)[0] == n;
    assert CompileNode(v, n, 0, 0) == UnionBlock(v, l, [Char(d)], 0, 0);
    if v.Corrected? {
      var head := [Split(1, 6)] + left;
      assert head == [Split(1, 6), MatchChar(c), Split(3, 5), MatchChar(c), Jump(2)];
      assert head + [Jump(7)] == [Split(1, 6), MatchChar(c), Split(3, 5), MatchChar(c), Jump(2), Jump(7)];
      assert head + [Jump(7)] + [MatchChar(d)] == AtLeastOneOrCode(v, c, d);
      assert CompileSeq(v, l, 1, 0).value.code == left && |left| == 4;
    } else {
      assert CompileSeq(v, l, 1, 0).value.code == left == [MatchChar(c)];
      assert [Split(1, 6)] + left + [Jump(4)] + [MatchChar(d)] == AtLeastOneOrCode(v, c, d);
    }
  }

  /** `c{1,}|d` compiles to a Split whose right target is 6, whatever the
      variant. */
  lemma AtLeastOneOrCompiled(v: Variant, c: char, d: char)
    ensures Compile(v, AtLeastOneOr(c, d)) == Ok(AtLeastOneOrCode(v, c, d) + [Match])
  {
    var code := AtLeastOneOrCode(v, c, d);
    AtLeastOneOrUnion(v, c, d);
    assert AtLeastOneOr(c, d)[1..] == [];
    EverySingle(Char(c), OrderedBounds);
    EverySingle(Rep([Char(c)], 1, None), OrderedBounds);
    EverySingle(Char(d), OrderedBounds);
    EverySingle(AtLeastOneOr(c, d)[0], OrderedBounds);
    assert CompileSeq(v, [], |code|, 0) == Ok(Emitted([], 0));
    assert code + [] == code;
    assert CompileSeq(v, AtLeastOneOr(c, d), 0, 0) == Ok(Emitted(code, 0));
  }

  /** As written the union's Split sends the right alternative to address
      6, past the end of the five-instruction program, because the left
      operand's estimate (4) exceeds its code (1). Corrected, the left
      operand has all four instructions and every target is in range. */
  lemma AtLeastOneCompiled(v: Variant)
    ensures Compile(v, AtLeastOneAOrB()) == Ok(if v.AsWritten? then AtLeastOneWritten() else AtLeastOneFixed())
  {
    AtLeastOneOrCompiled(v, 'a', 'b');
    assert AtLeastOneOrCode(v, 'a', 'b') + [Match] == if v.AsWritten? then AtLeastOneWritten() else AtLeastOneFixed();
  }

  /** So as written `a{1,}|b` throws on "bx" instead of matching "b". */
  lemma AtLeastOneWrittenThrows(fuel: nat)
    requires fuel >= 5
    ensures Attempt(AsWritten, AtLeastOneWritten(), "bx", 0, fuel) == Crashed(PcOutOfRange(6))
  {
    RunNext(AsWritten, AtLeastOneWritten(), "bx", Seed(0), Vm(Some(Fresh(0, 0)), [], []), fuel);
    RunNext(AsWritten, AtLeastOneWritten(), "bx", Vm(Some(Fresh(0, 0)), [], []), Vm(Some(Fresh(1, 0)), [Fresh(6, 0)], []), fuel - 1);
    RunNext(AsWritten, AtLeastOneWritten(), "bx", Vm(Some(Fresh(1, 0)), [Fresh(6, 0)], []), Vm(None, [Fresh(6, 0)], []), fuel - 2);
    RunNext(AsWritten, AtLeastOneWritten(), "bx", Vm(None, [Fresh(6, 0)], []), Vm(Some(Fresh(6, 0)), [], []), fuel - 3);
    RunHalt(AsWritten, AtLeastOneWritten(), "bx", Vm(Some(Fresh(6, 0)), [], []), Crashed(PcOutOfRange(6)), fuel - 4);
  }

  /** Corrected, `a{1,}|b` matches "b" in "bx". */
  lemma AtLeastOneFixedMatches(fuel: nat)
    requires fuel >= 6
    ensures Attempt(Corrected, AtLeastOneFixed(), "bx", 0, fuel) == Matched(0, map[])
  {
    AtLeastOneFixedMatchesFrom4(fuel - 4);
    RunNext(Corrected, AtLeastOneFixed(), "bx", Seed(0), Vm(Some(Fresh(0, 0)), [], []), fuel);
    RunNext(Corrected, AtLeastOneFixed(), "bx", Vm(Some(Fresh(0, 0)), [], []), Vm(Some(Fresh(1, 0)), [Fresh(6, 0)], []), fuel - 1);
    RunNext(Corrected, AtLeastOneFixed(), "bx", Vm(Some(Fresh(1, 0)), [Fresh(6, 0)], []), Vm(None, [Fresh(6, 0)], []), fuel - 2);
    RunNext(Corrected, AtLeastOneFixed(), "bx", Vm(None, [Fresh(6, 0)], []), Vm(Some(Fresh(6, 0)), [], []), fuel - 3);
  }

  lemma AtLeastOneFixedMatchesFrom4(fuel: nat)
    requires fuel >= 2
    ensures Run(Corrected, AtLeastOneFixed(), "bx", Vm(Some(Fresh(6, 0)), [], []), fuel) == Matched(0, map[])
  {
    RunNext(Corrected, AtLeastOneFixed(), "bx", Vm(Some(Fresh(6, 0)), [], []), Vm(Some(Fresh(7, 1)), [], []), fuel);
    RunHalt(Corrected, AtLeastOneFixed(), "bx", Vm(Some(Fresh(7, 1)), [], []), Matched(0, map[]), fuel - 1);
  }

  /** `c{3,2}|d`: a repetition with its bounds reversed, as the left
      operand of a union. */
  function ReversedOr(c: char, d: char): seq<Node> {
    [Union([Rep([Char(c)], 3, Some(2))], [Char(d)])]
  }

  /** As written: the left operand is estimated at 1 instruction and
      compiled to 3, so the Split's right target 3 is the third `c`, not the
      `d` at 5. */
  function ReversedOrWritten(c: char, d: char): seq<Instr> {
    [Split(1, 3), MatchChar(c), MatchChar(c), MatchChar(c), Jump(6), MatchChar(d), Match]
  }

  /** `c{3,2}|d` compiles as above as written, and is refused once
      corrected. */
  lemma ReversedOrCompiled(c: char, d: char)
    ensures Compile(AsWritten, ReversedOr(c, d)) == Ok(ReversedOrWritten(c, d))
    ensures Compile(Corrected, ReversedOr(c, d)) == Err(ReversedBounds)
  {
    ReversedOrUnion(c, d);
    var code := [Split(1, 3), MatchChar(c), MatchChar(c), MatchChar(c), Jump(6), MatchChar(d)];
    assert ReversedOr(c, d)[1..] == [];
    assert CompileSeq(AsWritten, [], 6, 0) == Ok(Emitted([], 0));
    assert code + [] == code;
    assert CompileSeq(AsWritten, ReversedOr(c, d), 0, 0) == Ok(Emitted(code, 0));
    assert code + [Match] == ReversedOrWritten(c, d);
    ReversedOrIllFormed(c, d);
  }

  lemma ReversedOrUnion(c: char, d: char)
    ensures CompileNode(AsWritten, ReversedOr(c, d)[0], 0, 0)
         == Ok(Emitted([Split(1, 3), MatchChar(c), MatchChar(c), MatchChar(c), Jump(6), MatchChar(d)], 0))
  {
    var l := [Rep([Char(c)], 3, Some(2))];
    var n := Union(l, [Char(d)]);
    var left := [MatchChar(c), MatchChar(c), MatchChar(c)];
    ReversedRepCompiled(c);
    CompileOneChar(AsWritten, d, 5, 0);
    assert [Char(d)][1..] == [] && Count([Char(d)]) == 1;
    assert ReversedOr(c, d)[0] == n;
    assert CompileNode(AsWritten, n, 0, 0) == UnionBlock(AsWritten, l, [Char(d)], 0, 0);
    assert CompileSeq(AsWritten, l, 1, 0).value.code == left && |left| == 3;
    assert [Split(1, 3)] + left + [Jump(6)] + [MatchChar(d)]
        == [Split(1, 3), MatchChar(c), MatchChar(c), MatchChar(c), Jump(6), MatchChar(d)];
  }

  lemma ReversedOrIllFormed(c: char, d: char)
    ensures !WellFormed(ReversedOr(c, d))
  {
    var rep := Rep([Char(c)], 3, Some(2));
    assert !EveryNode(rep, OrderedBounds);
    assert [rep][0] == rep && !Every([rep], OrderedBounds);
    var n := Union([rep], [Char(d)]);
    assert !EveryNode(n, OrderedBounds);
    assert ReversedOr(c, d) == [n] && [n][0] == n;
    assert !Every([n], OrderedBounds);
  }

  /** `c{3,2}` at address 1: estimated at 1 instruction, compiled to 3. */
  lemma ReversedRepCompiled(c: char)
    ensures Count([Rep([Char(c)], 3, Some(2))]) == 1
    ensures CompileSeq(AsWritten, [Rep([Char(c)], 3, Some(2))], 1, 0)
         == Ok(Emitted([MatchChar(c), MatchChar(c), MatchChar(c)], 0))
  {
    var a := [Char(c)];
    var l := [Rep(a, 3, Some(2))];
    var left := [MatchChar(c), MatchChar(c), MatchChar(c)];
    assert a[1..] == [] && Count(a) == 1;
    BlocksProduct(3, 1);
    BlocksProduct(-1, 2);
    assert CountNode(Rep(a, 3, Some(2))) == 1;
    assert l[1..] == [];
    CompileOneChar(AsWritten, c, 1, 0);
    CompileOneChar(AsWritten, c, 2, 0);
    CompileOneChar(AsWritten, c, 3, 0);
    assert Copies(AsWritten, a, 0, 4, 0) == Ok(Emitted([], 0));
    assert [MatchChar(c)] + [] == [MatchChar(c)];
    assert Copies(AsWritten, a, 1, 3, 0) == Ok(Emitted([MatchChar(c)], 0));
    assert [MatchChar(c)] + [MatchChar(c)] == [MatchChar(c), MatchChar(c)];
    assert Copies(AsWritten, a, 2, 2, 0) == Ok(Emitted([MatchChar(c), MatchChar(c)], 0));
    assert [MatchChar(c)] + [MatchChar(c), MatchChar(c)] == left;
    assert Copies(AsWritten, a, 3, 1, 0) == Ok(Emitted(left, 0));
    assert RepTail(AsWritten, a, 3, Some(2), 1, 4, 0) == Ok(Emitted([], 0));
    assert left + [] == left;
    assert CompileNode(AsWritten, Rep(a, 3, Some(2)), 1, 0) == Ok(Emitted(left, 0));
    assert CompileSeq(AsWritten, [], 4, 0) == Ok(Emitted([], 0));
  }

  /** So as written `a{3,2}|b` does not match "b" in "bx": the right branch
      of the Split tries an `a`. */
  lemma ReversedOrWrittenMisses(fuel: nat)
    requires fuel >= 6
    ensures Attempt(AsWritten, ReversedOrWritten('a', 'b'), "bx", 0, fuel) == NoMatch
  {
    ReversedOrWrittenMissesFrom3(fuel - 3);
    RunNext(AsWritten, ReversedOrWritten('a', 'b'), "bx", Seed(0), Vm(Some(Fresh(0, 0)), [], []), fuel);
    RunNext(AsWritten, ReversedOrWritten('a', 'b'), "bx", Vm(Some(Fresh(0, 0)), [], []), Vm(Some(Fresh(1, 0)), [Fresh(3, 0)], []), fuel - 1);
    RunNext(AsWritten, ReversedOrWritten('a', 'b'), "bx", Vm(Some(Fresh(1, 0)), [Fresh(3, 0)], []), Vm(None, [Fresh(3, 0)], []), fuel - 2);
  }

  lemma ReversedOrWrittenMissesFrom3(fuel: nat)
    requires fuel >= 3
    ensures Run(AsWritten, ReversedOrWritten('a', 'b'), "bx", Vm(None, [Fresh(3, 0)], []), fuel) == NoMatch
  {
    RunNext(AsWritten, ReversedOrWritten('a', 'b'), "bx", Vm(None, [Fresh(3, 0)], []), Vm(Some(Fresh(3, 0)), [], []), fuel);
    RunNext(AsWritten, ReversedOrWritten('a', 'b'), "bx", Vm(Some(Fresh(3, 0)), [], []), Vm(None, [], []), fuel - 1);
    RunHalt(AsWritten, ReversedOrWritten('a', 'b'), "bx", Vm(None, [], []), NoMatch, fuel - 2);
  }

  /** A union costs its operands plus two (a Split and a Jump): `a|b` is
      estimated at 4 instructions, `a|b+` at 5, and `a|(ab)` compiles to
      a program of 8. */
  lemma UnionCounts(v: Variant, a: char, b: char)
    ensures CountNode(Union([Char(a)], [Char(b)])) == 4
    ensures CountNode(Union([Char(a)], [Plus([Char(b)])])) == 5
    ensures Compile(v, [Union([Char(a)], [Marked([Char(a), Char(b)])])]).Ok?
    ensures |Compile(v, [Union([Char(a)], [Marked([Char(a), Char(b)])])]).value| == 8
  {
    var ab := [Char(a), Char(b)];
    var n := Union([Char(a)], [Marked(ab)]);
    assert [Char(a)][1..] == [] && [Char(b)][1..] == [] && ab[1..] == [Char(b)];
    assert [Plus([Char(b)])][1..] == [];
    assert [Marked(ab)][1..] == [] && [n][1..] == [];
    assert Count([Char(b)]) == 1;
    assert Count(ab) == 2;
    assert CountNode(Marked(ab)) == 4 && Count([Marked(ab)]) == 4;
    assert CountNode(n) == 7 && Count([n]) == 7;
    assert Count([Plus([Char(b)])]) == 2;
    forall p: Property
      ensures Every([n], p)
    {
      EverySingle(Char(a), p);
      EverySingle(Char(b), p);
      assert Every(ab, p);
      EverySingle(Marked(ab), p);
      EverySingle(n, p);
    }
    assert Supported([n]) && WellFormed([n]) && RepFree([n]) && Sized(v, [n]);
    ProgramLayout(v, [n]);
  }

  function LoneA(): seq<Instr> {
    [MatchChar('a'), Match]
  }

  /** As written `a` does not match "a": the thread that consumed the `a`
      is at the end of the text and is dropped before it reaches Match. */
  lemma LoneAWritten(fuel: nat)
    requires fuel >= 4
    ensures Attempt(AsWritten, LoneA(), "a", 0, fuel) == NoMatch
  {
    RunNext(AsWritten, LoneA(), "a", Seed(0), Vm(Some(Fresh(0, 0)), [], []), fuel);
    RunNext(AsWritten, LoneA(), "a", Vm(Some(Fresh(0, 0)), [], []), Vm(Some(Fresh(1, 1)), [], []), fuel - 1);
    RunNext(AsWritten, LoneA(), "a", Vm(Some(Fresh(1, 1)), [], []), Vm(None, [], []), fuel - 2);
    RunHalt(AsWritten, LoneA(), "a", Vm(None, [], []), NoMatch, fuel - 3);
  }

  /** Corrected, `a` matches "a". */
  lemma LoneAFixed(fuel: nat)
    requires fuel >= 3
    ensures Attempt(Corrected, LoneA(), "a", 0, fuel) == Matched(0, map[])
  {
    RunNext(Corrected, LoneA(), "a", Seed(0), Vm(Some(Fresh(0, 0)), [], []), fuel);
    RunNext(Corrected, LoneA(), "a", Vm(Some(Fresh(0, 0)), [], []), Vm(Some(Fresh(1, 1)), [], []), fuel - 1);
    RunHalt(Corrected, LoneA(), "a", Vm(Some(Fresh(1, 1)), [], []), Matched(0, map[]), fuel - 2);
  }

  /** The scans of "a" differ accordingly. */
  lemma LoneAScans()
    ensures Execute(AsWritten, LoneA(), "a", 10) == Ok([])
    ensures Execute(Corrected, LoneA(), "a", 10) == Ok([Span(0, 0)])
  {
    LoneAWritten(10);
    LoneAFixed(10);
    assert ScanFrom(AsWritten, LoneA(), "a", 1, 10) == Ok([]);
    assert ScanFrom(Corrected, LoneA(), "a", 1, 10) == Ok([]);
    assert [Span(0, 0)] + [] == [Span(0, 0)];
  }

  /** `(a?)a`: a capturing group around an optional `a`, then `a`. */
  function GroupedOptional(): seq<Node> {
    [Marked([Quest([Char('a')])]), Char('a')]
  }

  function GroupedOptionalCode(): seq<Instr> {
    [StartCapture(0), Split(2, 3), MatchChar('a'), EndCapture(0), MatchChar('a'), Match]
  }

  /** A thread whose capture 0 lives in slot `id`. */
  function InGroup(pc: int, sp: nat, id: nat): Thread {
    Thread(pc, sp, map[0 := id])
  }

  /** `(a?)a` compiles the same way in both variants. */
  lemma GroupedOptionalCompiled(v: Variant)
    ensures Compile(v, GroupedOptional()) == Ok(GroupedOptionalCode())
  {
    var group := [StartCapture(0), Split(2, 3), MatchChar('a'), EndCapture(0)];
    GroupedOptionalGroup(v);
    CompileOneChar(v, 'a', 4, 1);
    assert GroupedOptional()[1..] == [Char('a')];
    assert CompileSeq(v, GroupedOptional(), 0, 0) == Ok(Emitted(group + [MatchChar('a')], 1));
    assert group + [MatchChar('a')] + [Match] == GroupedOptionalCode();
  }

  /** The group `(a?)` at address 0, capture 0. */
  lemma GroupedOptionalGroup(v: Variant)
    ensures MarkedBlock(v, [Quest([Char('a')])], 0, 0)
         == Ok(Emitted([StartCapture(0), Split(2, 3), MatchChar('a'), EndCapture(0)], 1))
  {
    var quest := [Split(2, 3), MatchChar('a')];
    CompileOneChar(v, 'a', 2, 1);
    assert Count([Char('a')]) == 1 && [Split(2, 3)] + [MatchChar('a')] == quest;
    assert QuestBlock(v, [Char('a')], 1, 1) == Ok(Emitted(quest, 1));
    assert [Quest([Char('a')])][1..] == [];
    assert CompileSeq(v, [Quest([Char('a')])], 1, 1) == Ok(Emitted(quest + [], 1));
    assert quest + [] == quest;
    assert [StartCapture(0)] + quest + [EndCapture(0)] == [StartCapture(0), Split(2, 3), MatchChar('a'), EndCapture(0)];
  }

  /** As written, on "ax" the branch that takes the `a` closes the group
      at 1 and then fails on the second `a`; the branch that skips it
      closes the group again, at 0, in the same slot. The match reports
      capture 0 as [0, 1, 0], which reads as "a" although the group matched
      the empty string. */
  lemma GroupedOptionalWritten(fuel: nat)
    requires fuel >= 10
    ensures Attempt(AsWritten, GroupedOptionalCode(), "ax", 0, fuel) == Matched(0, map[0 := [0, 1, 0]])
  {
    GroupedOptionalWrittenSteps1(fuel - 0);
    GroupedOptionalWrittenSteps2(fuel - 2);
    GroupedOptionalWrittenSteps3(fuel - 4);
    GroupedOptionalWrittenSteps4(fuel - 6);
    GroupedOptionalWrittenSteps5(fuel - 8);
    GroupedOptionalWrittenHalt(fuel - 9);
  }

  lemma GroupedOptionalWrittenSteps1(fuel: nat)
    requires fuel >= 10
    ensures Run(AsWritten, GroupedOptionalCode(), "ax", Seed(0), fuel)
         == Run(AsWritten, GroupedOptionalCode(), "ax", Vm(Some(InGroup(1, 0, 0)), [], [[0]]), fuel - 2)
  {
    RunNext(AsWritten, GroupedOptionalCode(), "ax", Seed(0), Vm(Some(Fresh(0, 0)), [], []), fuel - 0);
    RunNext(AsWritten, GroupedOptionalCode(), "ax", Vm(Some(Fresh(0, 0)), [], []), Vm(Some(InGroup(1, 0, 0)), [], [[0]]), fuel - 1);
  }

  lemma GroupedOptionalWrittenSteps2(fuel: nat)
    requires fuel >= 8
    ensures Run(AsWritten, GroupedOptionalCode(), "ax", Vm(Some(InGroup(1, 0, 0)), [], [[0]]), fuel)
         == Run(AsWritten, GroupedOptionalCode(), "ax", Vm(Some(InGroup(3, 1, 0)), [InGroup(3, 0, 0)], [[0]]), fuel - 2)
  {
    RunNext(AsWritten, GroupedOptionalCode(), "ax", Vm(Some(InGroup(1, 0, 0)), [], [[0]]), Vm(Some(InGroup(2, 0, 0)), [InGroup(3, 0, 0)], [[0]]), fuel - 0);
    RunNext(AsWritten, GroupedOptionalCode(), "ax", Vm(Some(InGroup(2, 0, 0)), [InGroup(3, 0, 0)], [[0]]), Vm(Some(InGroup(3, 1, 0)), [InGroup(3, 0, 0)], [[0]]), fuel - 1);
  }

  lemma GroupedOptionalWrittenSteps3(fuel: nat)
    requires fuel >= 6
    ensures Run(AsWritten, GroupedOptionalCode(), "ax", Vm(Some(InGroup(3, 1, 0)), [InGroup(3, 0, 0)], [[0]]), fuel)
         == Run(AsWritten, GroupedOptionalCode(), "ax", Vm(None, [InGroup(3, 0, 0)], [[0, 1]]), fuel - 2)
  {
    assert [0] + [1] == [0, 1] && [[0]][0 := [0, 1]] == [[0, 1]];
    RunNext(AsWritten, GroupedOptionalCode(), "ax", Vm(Some(InGroup(3, 1, 0)), [InGroup(3, 0, 0)], [[0]]), Vm(Some(InGroup(4, 1, 0)), [InGroup(3, 0, 0)], [[0, 1]]), fuel - 0);
    RunNext(AsWritten, GroupedOptionalCode(), "ax", Vm(Some(InGroup(4, 1, 0)), [InGroup(3, 0, 0)], [[0, 1]]), Vm(None, [InGroup(3, 0, 0)], [[0, 1]]), fuel - 1);
  }

  lemma GroupedOptionalWrittenSteps4(fuel: nat)
    requires fuel >= 4
    ensures Run(AsWritten, GroupedOptionalCode(), "ax", Vm(None, [InGroup(3, 0, 0)], [[0, 1]]), fuel)
         == Run(AsWritten, GroupedOptionalCode(), "ax", Vm(Some(InGroup(4, 0, 0)), [], [[0, 1, 0]]), fuel - 2)
  {
    RunNext(AsWritten, GroupedOptionalCode(), "ax", Vm(None, [InGroup(3, 0, 0)], [[0, 1]]), Vm(Some(InGroup(3, 0, 0)), [], [[0, 1]]), fuel - 0);
    assert [0, 1] + [0] == [0, 1, 0] && [[0, 1]][0 := [0, 1, 0]] == [[0, 1, 0]];
    RunNext(AsWritten, GroupedOptionalCode(), "ax", Vm(Some(InGroup(3, 0, 0)), [], [[0, 1]]), Vm(Some(InGroup(4, 0, 0)), [], [[0, 1, 0]]), fuel - 1);
  }

  lemma GroupedOptionalWrittenSteps5(fuel: nat)
    requires fuel >= 2
    ensures Run(AsWritten, GroupedOptionalCode(), "ax", Vm(Some(InGroup(4, 0, 0)), [], [[0, 1, 0]]), fuel)
         == Run(AsWritten, GroupedOptionalCode(), "ax", Vm(Some(InGroup(5, 1, 0)), [], [[0, 1, 0]]), fuel - 1)
  {
    RunNext(AsWritten, GroupedOptionalCode(), "ax", Vm(Some(InGroup(4, 0, 0)), [], [[0, 1, 0]]), Vm(Some(InGroup(5, 1, 0)), [], [[0, 1, 0]]), fuel - 0);
  }

  lemma GroupedOptionalWrittenHalt(fuel: nat)
    requires fuel >= 1
    ensures Run(AsWritten, GroupedOptionalCode(), "ax", Vm(Some(InGroup(5, 1, 0)), [], [[0, 1, 0]]), fuel) == Matched(0, map[0 := [0, 1, 0]])
  {
    assert Captures(InGroup(5, 1, 0), [[0, 1, 0]]) == map[0 := [0, 1, 0]];
    RunHalt(AsWritten, GroupedOptionalCode(), "ax", Vm(Some(InGroup(5, 1, 0)), [], [[0, 1, 0]]), Matched(0, map[0 := [0, 1, 0]]), fuel);
  }

  /** Corrected, each branch closes the group in a slot of its own, and the
      match reports capture 0 as [0, 0], the empty string it matched. */
  lemma GroupedOptionalFixed(fuel: nat)
    requires fuel >= 10
    ensures Attempt(Corrected, GroupedOptionalCode(), "ax", 0, fuel) == Matched(0, map[0 := [0, 0]])
  {
    GroupedOptionalFixedSteps1(fuel - 0);
    GroupedOptionalFixedSteps2(fuel - 2);
    GroupedOptionalFixedSteps3(fuel - 4);
    GroupedOptionalFixedSteps4(fuel - 6);
    GroupedOptionalFixedSteps5(fuel - 8);
    GroupedOptionalFixedHalt(fuel - 9);
  }

  lemma GroupedOptionalFixedSteps1(fuel: nat)
    requires fuel >= 10
    ensures Run(Corrected, GroupedOptionalCode(), "ax", Seed(0), fuel)
         == Run(Corrected, GroupedOptionalCode(), "ax", Vm(Some(InGroup(1, 0, 0)), [], [[0]]), fuel - 2)
  {
    RunNext(Corrected, GroupedOptionalCode(), "ax", Seed(0), Vm(Some(Fresh(0, 0)), [], []), fuel - 0);
    RunNext(Corrected, GroupedOptionalCode(), "ax", Vm(Some(Fresh(0, 0)), [], []), Vm(Some(InGroup(1, 0, 0)), [], [[0]]), fuel - 1);
  }

  lemma GroupedOptionalFixedSteps2(fuel: nat)
    requires fuel >= 8
    ensures Run(Corrected, GroupedOptionalCode(), "ax", Vm(Some(InGroup(1, 0, 0)), [], [[0]]), fuel)
         == Run(Corrected, GroupedOptionalCode(), "ax", Vm(Some(InGroup(3, 1, 0)), [InGroup(3, 0, 0)], [[0]]), fuel - 2)
  {
    RunNext(Corrected, GroupedOptionalCode(), "ax", Vm(Some(InGroup(1, 0, 0)), [], [[0]]), Vm(Some(InGroup(2, 0, 0)), [InGroup(3, 0, 0)], [[0]]), fuel - 0);
    RunNext(Corrected, GroupedOptionalCode(), "ax", Vm(Some(InGroup(2, 0, 0)), [InGroup(3, 0, 0)], [[0]]), Vm(Some(InGroup(3, 1, 0)), [InGroup(3, 0, 0)], [[0]]), fuel - 1);
  }

  lemma GroupedOptionalFixedSteps3(fuel: nat)
    requires fuel >= 6
    ensures Run(Corrected, GroupedOptionalCode(), "ax", Vm(Some(InGroup(3, 1, 0)), [InGroup(3, 0, 0)], [[0]]), fuel)
         == Run(Corrected, GroupedOptionalCode(), "ax", Vm(None, [InGroup(3, 0, 0)], [[0], [0, 1]]), fuel - 2)
  {
    assert map[0 := 0][0 := 1] == map[0 := 1] && [0] + [1] == [0, 1] && [[0]] + [[0, 1]] == [[0], [0, 1]];
    RunNext(Corrected, GroupedOptionalCode(), "ax", Vm(Some(InGroup(3, 1, 0)), [InGroup(3, 0, 0)], [[0]]), Vm(Some(InGroup(4, 1, 1)), [InGroup(3, 0, 0)], [[0], [0, 1]]), fuel - 0);
    RunNext(Corrected, GroupedOptionalCode(), "ax", Vm(Some(InGroup(4, 1, 1)), [InGroup(3, 0, 0)], [[0], [0, 1]]), Vm(None, [InGroup(3, 0, 0)], [[0], [0, 1]]), fuel - 1);
  }

  lemma GroupedOptionalFixedSteps4(fuel: nat)
    requires fuel >= 4
    ensures Run(Corrected, GroupedOptionalCode(), "ax", Vm(None, [InGroup(3, 0, 0)], [[0], [0, 1]]), fuel)
         == Run(Corrected, GroupedOptionalCode(), "ax", Vm(Some(InGroup(4, 0, 2)), [], [[0], [0, 1], [0, 0]]), fuel - 2)
  {
    RunNext(Corrected, GroupedOptionalCode(), "ax", Vm(None, [InGroup(3, 0, 0)], [[0], [0, 1]]), Vm(Some(InGroup(3, 0, 0)), [], [[0], [0, 1]]), fuel - 0);
    assert map[0 := 0][0 := 2] == map[0 := 2] && [0] + [0] == [0, 0];
    assert [[0], [0, 1]] + [[0, 0]] == [[0], [0, 1], [0, 0]];
    RunNext(Corrected, GroupedOptionalCode(), "ax", Vm(Some(InGroup(3, 0, 0)), [], [[0], [0, 1]]), Vm(Some(InGroup(4, 0, 2)), [], [[0], [0, 1], [0, 0]]), fuel - 1);
  }

  lemma GroupedOptionalFixedSteps5(fuel: nat)
    requires fuel >= 2
    ensures Run(Corrected, GroupedOptionalCode(), "ax", Vm(Some(InGroup(4, 0, 2)), [], [[0], [0, 1], [0, 0]]), fuel)
         == Run(Corrected, GroupedOptionalCode(), "ax", Vm(Some(InGroup(5, 1, 2)), [], [[0], [0, 1], [0, 0]]), fuel - 1)
  {
    RunNext(Corrected, GroupedOptionalCode(), "ax", Vm(Some(InGroup(4, 0, 2)), [], [[0], [0, 1], [0, 0]]), Vm(Some(InGroup(5, 1, 2)), [], [[0], [0, 1], [0, 0]]), fuel - 0);
  }

  lemma GroupedOptionalFixedHalt(fuel: nat)
    requires fuel >= 1
    ensures Run(Corrected, GroupedOptionalCode(), "ax", Vm(Some(InGroup(5, 1, 2)), [], [[0], [0, 1], [0, 0]]), fuel) == Matched(0, map[0 := [0, 0]])
  {
    assert Captures(InGroup(5, 1, 2), [[0], [0, 1], [0, 0]]) == map[0 := [0, 0]];
    RunHalt(Corrected, GroupedOptionalCode(), "ax", Vm(Some(InGroup(5, 1, 2)), [], [[0], [0, 1], [0, 0]]), Matched(0, map[0 := [0, 0]]), fuel);
  }
}

=== FILE: machine.dfy ===
/** The backtracking machine `_threadedMachine`: an explicit LIFO pool of
    threads (pc, sp, groups) tried from one start offset, as a small-step
    function `Step` and a fuel-bounded driver `Run`. */
module Machine {
  import opened Base
  import opened Bytecode

  /** One alternative: program counter, text position, and the capture
      table, which maps a capture index to the slot holding its positions. */
  datatype Thread = Thread(pc: int, sp: nat, groups: map<nat, nat>)

  /** The thread being run (None between threads), the pool of deferred
      threads (its last element is the top), and the capture slots. A slot
      is one of the source's `[start, end, ...]` arrays: a Split copies a
      thread's table, but the copy names the same slots, because
      `[...groups]` copies only the outer array. */
  datatype Vm = Vm(running: Option<Thread>, pool: seq<Thread>, slots: seq<seq<nat>>)

  /** The TypeErrors the source can throw while matching. */
  datatype Fault =
    | PcOutOfRange(pc: int)               // `this._prog[pc]` is undefined
    | EndOfUnopenedCapture(index: nat)    // `groups[index]` is undefined at END_CAPTURE
    | BackrefToUnopenedGroup(group: int)  // `groups[group - 1]` is undefined at GROUP

  /** `Matched(end, captures)` is the source's `{end, captures}` result;
      `NoMatch` is its `{end: -1, captures: null}`. */
  datatype Outcome =
    | Matched(end: int, captures: map<nat, seq<nat>>)
    | NoMatch
    | Crashed(fault: Fault)
    | OutOfFuel
  {
    /** The `end` field the scanner reads. */
    function End(): int {
      if Matched? then end else -1
    }
  }

  datatype Transition = Next(vm: Vm) | Halt(outcome: Outcome)

  /** All live threads: the pool and the running one. */
  function Threads(m: Vm): seq<Thread> {
    m.pool + (if m.running.Some? then [m.running.value] else [])
  }

  /** Every entry of `t`'s table names one of `n` slots. */
  predicate TableOk(t: Thread, n: nat) {
    forall i | i in t.groups :: t.groups[i] < n
  }

  /** Every slot is non-empty and every table entry names an existing slot. */
  predicate SlotsOk(m: Vm) {
    && (forall k | 0 <= k < |m.slots| :: |m.slots[k]| >= 1)
    && (forall j | 0 <= j < |m.pool| :: TableOk(m.pool[j], |m.slots|))
    && (m.running.Some? ==> TableOk(m.running.value, |m.slots|))
  }

  /** JavaScript's `text.slice(a, b)` for non-negative `a` and `b`. */
  function Slice(text: string, a: nat, b: nat): (r: string)
    ensures |r| <= |text|
  {
    var from := if a < |text| then a else |text|;
    var to := if b < |text| then b else |text|;
    if from < to then text[from..to] else []
  }

  /** The text a capture slot `[start, end, ...]` spans; a capture that was
      opened but not closed runs to the end of the text. */
  function CapturedText(text: string, slot: seq<nat>): string
    requires |slot| >= 1
  {
    Slice(text, slot[0], if |slot| >= 2 then slot[1] else |text|)
  }

  /** A thread's capture table read through the slots. */
  function Captures(t: Thread, slots: seq<seq<nat>>): map<nat, seq<nat>>
    requires forall i | i in t.groups :: t.groups[i] < |slots|
  {
    map i | i in t.groups :: slots[t.groups[i]]
  }

  function Seed(start: nat): Vm {
    Vm(None, [Thread(0, start, map[])], [])
  }

  /** One step: pop a thread when none is running; otherwise drop the
      running thread if the source's loop guard `sp < text.length` fails,
      or execute its instruction. */
  function Step(v: Variant, prog: seq<Instr>, text: string, m: Vm): (r: Transition)
    requires SlotsOk(m)
    ensures r.Next? ==> SlotsOk(r.vm)
  {
    match m.running
    case None =>
      if |m.pool| == 0 then Halt(NoMatch)
      else Next(Vm(Some(m.pool[|m.pool| - 1]), m.pool[..|m.pool| - 1], m.slots))
    case Some(t) =>
      if v.AsWritten? && t.sp >= |text| then Next(m.(running := None))
      else if t.pc < 0 || t.pc >= |prog| then Halt(Crashed(PcOutOfRange(t.pc)))
      else Exec(v, prog[t.pc], text, t, m)
  }

  /** The running thread `t` executes instruction `i`. */
  function Exec(v: Variant, i: Instr, text: string, t: Thread, m: Vm): (r: Transition)
    requires SlotsOk(m) && m.running == Some(t)
    ensures r.Next? ==> SlotsOk(r.vm)
  {
    var die := Next(m.(running := None));
    match i
    case Match => Halt(Matched(t.sp - 1, Captures(t, m.slots)))
    case MatchChar(c) =>
      if t.sp < |text| && text[t.sp] == c then Next(m.(running := Some(t.(pc := t.pc + 1, sp := t.sp + 1))))
      else die
    case MatchAny =>
      if t.sp < |text| && text[t.sp] != '\n' then Next(m.(running := Some(t.(pc := t.pc + 1, sp := t.sp + 1))))
      else die
    case Jump(a) => Next(m.(running := Some(t.(pc := a))))
    case Split(l, r) => Next(Vm(Some(t.(pc := l)), m.pool + [t.(pc := r)], m.slots))
    case StartCapture(k) =>
      Next(Vm(Some(Thread(t.pc + 1, t.sp, t.groups[k := |m.slots|])), m.pool, m.slots + [[t.sp]]))
    case EndCapture(k) =>
      if k !in t.groups then Halt(Crashed(EndOfUnopenedCapture(k)))
      else
        var id := t.groups[k];
        if v.AsWritten? then
          // `push` onto the slot every copy of the table shares
          Next(Vm(Some(t.(pc := t.pc + 1)), m.pool, m.slots[id := m.slots[id] + [t.sp]]))
        else
          // copy on write: only this thread sees the closed capture
          Next(Vm(Some(Thread(t.pc + 1, t.sp, t.groups[k := |m.slots|])), m.pool, m.slots + [m.slots[id] + [t.sp]]))
    case Backref(g) =>
      if g < 1 || (g - 1) !in t.groups then Halt(Crashed(BackrefToUnopenedGroup(g)))
      else
        var captured := CapturedText(text, m.slots[t.groups[g - 1]]);
        if Slice(text, t.sp, t.sp + |captured|) == captured then
          Next(m.(running := Some(t.(pc := t.pc + 1, sp := t.sp + |captured|))))
        else die
  }

  /** At most `fuel` steps from `m`. */
  function Run(v: Variant, prog: seq<Instr>, text: string, m: Vm, fuel: nat): (r: Outcome)
    requires SlotsOk(m)
    decreases fuel
  {
    if fuel == 0 then OutOfFuel
    else
      match Step(v, prog, text, m)
      case Halt(o) => o
      case Next(m') => Run(v, prog, text, m', fuel - 1)
  }

  /** One attempt from `start`: the seed thread (pc 0, sp start, no
      captures) run for at most `fuel` steps. A match ends no earlier than
      start-1 (a zero-width match); as written it also ends two before the
      end of the text at the latest, because the loop guard drops every
      thread that reaches the end before it can execute Match. */
  function Attempt(v: Variant, prog: seq<Instr>, text: string, start: nat, fuel: nat): (r: Outcome)
    ensures r.Matched? ==> start - 1 <= r.end
    ensures r.Matched? && v.AsWritten? ==> r.end <= |text| - 2
    ensures r.Matched? && start <= |text| ==> r.end <= |text| - 1
  {
    RunBounds(v, prog, text, Seed(start), fuel, start);
    Run(v, prog, text, Seed(start), fuel)
  }

  /** No live thread is before `lo`. */
  predicate AllFrom(m: Vm, lo: int) {
    forall t | t in Threads(m) :: lo <= t.sp
  }

  /** No live thread is past `hi`. */
  predicate AllWithin(m: Vm, hi: int) {
    forall t | t in Threads(m) :: t.sp <= hi
  }

  /** What a Match reached in state `m` may report. */
  predicate EndBounded(v: Variant, text: string, m: Vm, lo: int, o: Outcome) {
    o.Matched? ==>
      && lo - 1 <= o.end
      && (v.AsWritten? ==> o.end <= |text| - 2)
      && (AllWithin(m, |text|) ==> o.end <= |text| - 1)
  }

  lemma SliceMatch(text: string, sp: nat, c: string)
    requires Slice(text, sp, sp + |c|) == c
    ensures sp + |c| <= |text| || |c| == 0
  {
  }

  /** A step never moves a thread backwards, keeps threads inside the
      text, and reports a match only at the running thread's position. */
  lemma StepBounds(v: Variant, prog: seq<Instr>, text: string, m: Vm, lo: int)
    requires SlotsOk(m) && AllFrom(m, lo)
    ensures Step(v, prog, text, m).Next? ==>
              && AllFrom(Step(v, prog, text, m).vm, lo)
              && (AllWithin(m, |text|) ==> AllWithin(Step(v, prog, text, m).vm, |text|))
    ensures Step(v, prog, text, m).Halt? ==> EndBounded(v, text, m, lo, Step(v, prog, text, m).outcome)
  {
    var r := Step(v, prog, text, m);
    match m.running
    case None =>
      if |m.pool| > 0 {
        assert Threads(r.vm) == m.pool;
      }
    case Some(t) =>
      assert t in Threads(m);
      if !(v.AsWritten? && t.sp >= |text|) && 0 <= t.pc < |prog| {
        ExecBounds(v, prog[t.pc], text, t, m, lo);
      }
  }

  lemma ExecBounds(v: Variant, i: Instr, text: string, t: Thread, m: Vm, lo: int)
    requires SlotsOk(m) && m.running == Some(t) && AllFrom(m, lo)
    requires v.AsWritten? ==> t.sp < |text|
    ensures Exec(v, i, text, t, m).Next? ==>
              && AllFrom(Exec(v, i, text, t, m).vm, lo)
              && (AllWithin(m, |text|) ==> AllWithin(Exec(v, i, text, t, m).vm, |text|))
    ensures Exec(v, i, text, t, m).Halt? ==> EndBounded(v, text, m, lo, Exec(v, i, text, t, m).outcome)
  {
    assert t in Threads(m);
    var r := Exec(v, i, text, t, m);
    if r.Next? {
      var m' := r.vm;
      forall u | u in Threads(m')
        ensures lo <= u.sp && (AllWithin(m, |text|) ==> u.sp <= |text|)
      {
        if u !in Threads(m) && u.sp != t.sp {
          assert m'.running == Some(u);
          if i.Backref? {
            SliceMatch(text, t.sp, CapturedText(text, m.slots[t.groups[i.group - 1]]));
          }
        }
      }
    }
  }

  lemma {:induction false} RunBounds(v: Variant, prog: seq<Instr>, text: string, m: Vm, fuel: nat, lo: int)
    requires SlotsOk(m) && AllFrom(m, lo)
    ensures EndBounded(v, text, m, lo, Run(v, prog, text, m, fuel))
    decreases fuel
  {
    if fuel > 0 {
      StepBounds(v, prog, text, m, lo);
      match Step(v, prog, text, m)
      case Halt(o) =>
      case Next(m') =>
        RunBounds(v, prog, text, m', fuel - 1, lo);
    }
  }

  /** A program the machine can run without leaving it: it ends with Match
      and every Jump and Split target is one of its addresses. */
  predicate ProgramClosed(prog: seq<Instr>) {
    |prog| >= 1 && prog[|prog| - 1] == Match && Closed(prog, 0, |prog| - 1)
  }

  predicate PcsIn(m: Vm, size: int) {
    forall t | t in Threads(m) :: 0 <= t.pc < size
  }

  predicate NotPcFault(o: Outcome) {
    !(o.Crashed? && o.fault.PcOutOfRange?)
  }

  lemma StepPcSafe(v: Variant, prog: seq<Instr>, text: string, m: Vm)
    requires SlotsOk(m) && ProgramClosed(prog) && PcsIn(m, |prog|)
    ensures Step(v, prog, text, m).Next? ==> PcsIn(Step(v, prog, text, m).vm, |prog|)
    ensures Step(v, prog, text, m).Halt? ==> NotPcFault(Step(v, prog, text, m).outcome)
  {
    var r := Step(v, prog, text, m);
    match m.running
    case None =>
      if |m.pool| > 0 {
        assert Threads(r.vm) == m.pool;
      }
    case Some(t) =>
      assert t in Threads(m);
      if r.Next? {
        forall u | u in Threads(r.vm)
          ensures 0 <= u.pc < |prog|
        {
          if u !in Threads(m) {
            ClosedAt(prog, 0, |prog| - 1, t.pc);
          }
        }
      }
  }

  /** A closed program never sends a thread to a missing instruction. */
  lemma {:induction false} RunPcSafe(v: Variant, prog: seq<Instr>, text: string, m: Vm, fuel: nat)
    requires SlotsOk(m) && ProgramClosed(prog) && PcsIn(m, |prog|)
    ensures NotPcFault(Run(v, prog, text, m, fuel))
    decreases fuel
  {
    if fuel > 0 {
      StepPcSafe(v, prog, text, m);
      match Step(v, prog, text, m)
      case Halt(o) =>
      case Next(m') => RunPcSafe(v, prog, text, m', fuel - 1);
    }
  }

  lemma AttemptPcSafe(v: Variant, prog: seq<Instr>, text: string, start: nat, fuel: nat)
    requires ProgramClosed(prog)
    ensures NotPcFault(Attempt(v, prog, text, start, fuel))
  {
    RunPcSafe(v, prog, text, Seed(start), fuel);
  }

  /** Char advances pc and sp by one exactly when the text has that
      character at sp; otherwise the thread dies. Any does the same for
      every character but a newline. */
  lemma ConsumeStep(v: Variant, prog: seq<Instr>, text: string, m: Vm, t: Thread)
    requires SlotsOk(m) && m.running == Some(t) && 0 <= t.pc < |prog| && t.sp < |text|
    requires prog[t.pc].MatchChar? || prog[t.pc].MatchAny?
    ensures Step(v, prog, text, m).Next?
    ensures
      var after := Step(v, prog, text, m).vm;
      var ok := if prog[t.pc].MatchChar? then text[t.sp] == prog[t.pc].value else text[t.sp] != '\n';
      && (ok ==> after == m.(running := Some(Thread(t.pc + 1, t.sp + 1, t.groups))))
      && (!ok ==> after == m.(running := None))
  {
  }

  /** A backreference to an opened group advances sp by the captured length
      exactly when the text at sp starts with the captured text. */
  lemma BackrefStep(v: Variant, prog: seq<Instr>, text: string, m: Vm, t: Thread)
    requires SlotsOk(m) && m.running == Some(t) && 0 <= t.pc < |prog| && t.sp < |text|
    requires prog[t.pc].Backref? && prog[t.pc].group >= 1 && prog[t.pc].group - 1 in t.groups
    ensures Step(v, prog, text, m).Next?
    ensures
      var captured := CapturedText(text, m.slots[t.groups[prog[t.pc].group - 1]]);
      Step(v, prog, text, m).vm.running == Some(Thread(t.pc + 1, t.sp + |captured|, t.groups))
      <==> captured <= text[t.sp..]
  {
    assert t in Threads(m);
    var i := prog[t.pc];
    var captured := CapturedText(text, m.slots[t.groups[i.group - 1]]);
    assert Step(v, prog, text, m) == Exec(v, i, text, t, m);
    var fits := Slice(text, t.sp, t.sp + |captured|) == captured;
    assert fits <==> captured <= text[t.sp..] by {
      if fits {
        SliceMatch(text, t.sp, captured);
        assert text[t.sp..][..|captured|] == text[t.sp..t.sp + |captured|];
      }
    }
  }

  /** Split continues at its left target and defers its right target on top
      of the pool, with the same position and a copy of the table. */
  lemma SplitStep(v: Variant, prog: seq<Instr>, text: string, m: Vm, t: Thread)
    requires SlotsOk(m) && m.running == Some(t) && 0 <= t.pc < |prog| && t.sp < |text|
    requires prog[t.pc].Split?
    ensures Step(v, prog, text, m).Next?
    ensures
      var after := Step(v, prog, text, m).vm;
      && after.running == Some(Thread(prog[t.pc].left, t.sp, t.groups))
      && after.pool == m.pool + [Thread(prog[t.pc].right, t.sp, t.groups)]
  {
  }

  /** Once corrected, a step never changes an existing capture slot: a
      thread can only add slots, so no alternative sees another's captures. */
  lemma CorrectedSlotsPersist(prog: seq<Instr>, text: string, m: Vm)
    requires SlotsOk(m)
    ensures Step(Corrected, prog, text, m).Next? ==> m.slots <= Step(Corrected, prog, text, m).vm.slots
  {
  }

  /** Threads deeper in the pool are invisible to a step: the step from
      `pool` and the step from `below + pool` agree, except that only the
      first can find the pool empty. */
  lemma StepFrame(v: Variant, prog: seq<Instr>, text: string, run: Option<Thread>, below: seq<Thread>, pool: seq<Thread>, slots: seq<seq<nat>>)
    requires SlotsOk(Vm(run, below + pool, slots)) && SlotsOk(Vm(run, pool, slots))
    ensures
      var small := Step(v, prog, text, Vm(run, pool, slots));
      var big := Step(v, prog, text, Vm(run, below + pool, slots));
      && (small.Next? ==> big == Next(small.vm.(pool := below + small.vm.pool)))
      && (small.Halt? && !small.outcome.NoMatch? ==> big == small)
  {
    match run
    case None =>
      if |pool| > 0 {
        assert (below + pool)[..|below + pool| - 1] == below + pool[..|pool| - 1];
      }
    case Some(t) =>
      if !(v.AsWritten? && t.sp >= |text|) && 0 <= t.pc < |prog| {
        ExecFrame(v, prog[t.pc], text, t, below, pool, slots);
      }
  }

  lemma ExecFrame(v: Variant, i: Instr, text: string, t: Thread, below: seq<Thread>, pool: seq<Thread>, slots: seq<seq<nat>>)
    requires SlotsOk(Vm(Some(t), below + pool, slots)) && SlotsOk(Vm(Some(t), pool, slots))
    ensures
      var small := Exec(v, i, text, t, Vm(Some(t), pool, slots));
      var big := Exec(v, i, text, t, Vm(Some(t), below + pool, slots));
      && (small.Next? ==> big == Next(small.vm.(pool := below + small.vm.pool)))
      && (small.Halt? ==> big == small)
  {
    match i
    case Split(_, r) =>
      assert below + pool + [t.(pc := r)] == below + (pool + [t.(pc := r)]);
    case _ =>
  }

  /** A run that matches or throws before it empties its own pool ends the
      same way on top of any deeper pool. */
  lemma {:induction false} RunFrame(v: Variant, prog: seq<Instr>, text: string, run: Option<Thread>, below: seq<Thread>, pool: seq<Thread>, slots: seq<seq<nat>>, fuel: nat)
    requires SlotsOk(Vm(run, below + pool, slots)) && SlotsOk(Vm(run, pool, slots))
    ensures
      var o := Run(v, prog, text, Vm(run, pool, slots), fuel);
      o.Matched? || o.Crashed? ==> Run(v, prog, text, Vm(run, below + pool, slots), fuel) == o
    decreases fuel
  {
    if fuel > 0 {
      StepFrame(v, prog, text, run, below, pool, slots);
      match Step(v, prog, text, Vm(run, pool, slots))
      case Halt(_) =>
      case Next(m') =>
        RunFrame(v, prog, text, m'.running, below, m'.pool, m'.slots, fuel - 1);
    }
  }

  /** Split is left-biased: when the left alternative reaches Match on its
      own, the whole run reports exactly that match, and the deferred right
      alternative is never run. */
  lemma LeftBias(v: Variant, prog: seq<Instr>, text: string, m: Vm, t: Thread, fuel: nat)
    requires SlotsOk(m) && m.running == Some(t) && 0 <= t.pc < |prog| && t.sp < |text|
    requires prog[t.pc].Split?
    requires SlotsOk(Vm(Some(Thread(prog[t.pc].left, t.sp, t.groups)), [], m.slots))
    requires Run(v, prog, text, Vm(Some(Thread(prog[t.pc].left, t.sp, t.groups)), [], m.slots), fuel).Matched?
    ensures Run(v, prog, text, m, fuel + 1)
         == Run(v, prog, text, Vm(Some(Thread(prog[t.pc].left, t.sp, t.groups)), [], m.slots), fuel)
  {
    var left := Some(Thread(prog[t.pc].left, t.sp, t.groups));
    var below := m.pool + [Thread(prog[t.pc].right, t.sp, t.groups)];
    SplitStep(v, prog, text, m, t);
    assert Step(v, prog, text, m) == Next(Vm(left, below + [], m.slots));
    RunFrame(v, prog, text, left, below, [], m.slots, fuel);
  }

  /** As written, closing a group writes into the slot the running thread
      shares with every thread split off inside the group: a deferred
      alternative then sees a close it never executed. */
  lemma SharedCloseWritten(prog: seq<Instr>, text: string, m: Vm, t: Thread, u: Thread, k: nat)
    requires SlotsOk(m) && m.running == Some(t) && u in m.pool
    requires 0 <= t.pc < |prog| && prog[t.pc] == EndCapture(k) && t.sp < |text|
    requires k in t.groups && k in u.groups && u.groups[k] == t.groups[k]
    ensures Step(AsWritten, prog, text, m).Next?
    ensures
      var after := Step(AsWritten, prog, text, m).vm;
      && u in after.pool
      && Captures(u, after.slots)[k] == Captures(u, m.slots)[k] + [t.sp]
  {
    assert t in Threads(m) && u in Threads(m);
  }

  /** Corrected, a step never changes what any existing thread reads as
      its captures. */
  lemma CapturesStayFixed(prog: seq<Instr>, text: string, m: Vm, u: Thread)
    requires SlotsOk(m) && u in Threads(m) && Step(Corrected, prog, text, m).Next?
    ensures
      var after := Step(Corrected, prog, text, m).vm;
      && (forall i | i in u.groups :: u.groups[i] < |after.slots|)
      && Captures(u, after.slots) == Captures(u, m.slots)
  {
    CorrectedSlotsPersist(prog, text, m);
  }

  /** A run that is not out of fuel takes its first step. */
  lemma RunNext(v: Variant, prog: seq<Instr>, text: string, m: Vm, m': Vm, fuel: nat)
    requires SlotsOk(m) && fuel >= 1 && Step(v, prog, text, m) == Next(m')
    ensures SlotsOk(m') && Run(v, prog, text, m, fuel) == Run(v, prog, text, m', fuel - 1)
  {
  }

  lemma RunHalt(v: Variant, prog: seq<Instr>, text: string, m: Vm, o: Outcome, fuel: nat)
    requires SlotsOk(m) && fuel >= 1 && Step(v, prog, text, m) == Halt(o)
    ensures Run(v, prog, text, m, fuel) == o
  {
  }
}

=== FILE: pattern.dfy ===
/** The pattern tree handed to the compiler by the (external) parser,
    and the size estimator `_countInstrRequired` over it. */
module Pattern {
  import opened Base

  /** One node of the parsed pattern. Every position the parser may fill with
      either one node or a list of nodes is a `seq<Node>`; a lone node is a
      singleton, and a list stands for concatenation. */
  datatype Node =
    | Char(value: char)                                  // a literal character
    | Dot                                                // `.`
    | Group(index: int)                                  // backreference `\index`, 1-based
    | Union(left: seq<Node>, right: seq<Node>)           // `left|right`
    | Quest(term: seq<Node>)                             // `term?`
    | Plus(term: seq<Node>)                              // `term+`
    | Star(term: seq<Node>)                              // `term*`
    | Rep(term: seq<Node>, min: nat, max: Option<nat>)   // `term{min,max}`; None is `{min,}`
    | Marked(term: seq<Node>)                            // `(term)`, a capturing group
    | Bracket(term: seq<Node>)                           // `[...]`, already expanded to unions
    | Unsupported(kind: string)                          // any other tag the parser might emit

  /** Instructions the compiler emits for a list of nodes (the estimator). */
  function Count(ts: seq<Node>): (r: int)
    decreases ts
  {
    if ts == [] then 0 else CountNode(ts[0]) + Count(ts[1..])
  }

  function CountNode(n: Node): (r: int)
    decreases n
  {
    match n
    case Char(_) => 1
    case Dot => 1
    case Group(_) => 1
    case Union(l, r) => Count(l) + 2 + Count(r)
    case Quest(t) => Count(t) + 1
    case Plus(t) => Count(t) + 1
    case Star(t) => Count(t) + 2
    case Rep(t, lo, hi) =>
      var e := Count(t);
      (match hi
       case None => Blocks(lo + 1, e) + 2
       case Some(h) => Blocks(lo, e) + Blocks(h - lo, e + 1))
    case Marked(t) => Count(t) + 2
    case Bracket(t) => Count(t)
    case Unsupported(_) => 0
  }

  /** `k` blocks of `e` instructions: the product `k * e` (negative when
      `k` is), spelled out as a sum. */
  function Blocks(k: int, e: int): (r: int)
    decreases if k < 0 then -k else k
  {
    if k == 0 then 0
    else if k > 0 then e + Blocks(k - 1, e)
    else Blocks(k + 1, e) - e
  }

  lemma {:induction false} BlocksProduct(k: int, e: int)
    ensures Blocks(k, e) == k * e
    decreases if k < 0 then -k else k
  {
    if k > 0 {
      BlocksProduct(k - 1, e);
    } else if k < 0 {
      BlocksProduct(k + 1, e);
    }
  }

  /** The per-node conditions the rest of the model quantifies over a tree. */
  datatype Property =
    | KnownTag         // the compiler knows the node's tag
    | OrderedBounds    // a bounded repetition has min <= max
    | BoundedOrdered   // a repetition is bounded, with min <= max
    | NoRep            // the node is not a counted repetition

  predicate Holds(p: Property, n: Node) {
    match p
    case KnownTag => !n.Unsupported?
    case OrderedBounds => n.Rep? && n.max.Some? ==> n.min <= n.max.value
    case BoundedOrdered => n.Rep? ==> n.max.Some? && n.min <= n.max.value
    case NoRep => !n.Rep?
  }

  /** `p` holds of every node of the tree, at every depth. */
  predicate Every(ts: seq<Node>, p: Property)
    decreases ts
  {
    ts == [] || (EveryNode(ts[0], p) && Every(ts[1..], p))
  }

  predicate EveryNode(n: Node, p: Property)
    decreases n
  {
    && Holds(p, n)
    && match n
       case Union(l, r) => Every(l, p) && Every(r, p)
       case Quest(t) => Every(t, p)
       case Plus(t) => Every(t, p)
       case Star(t) => Every(t, p)
       case Rep(t, _, _) => Every(t, p)
       case Marked(t) => Every(t, p)
       case Bracket(t) => Every(t, p)
       case _ => true
  }

  lemma EverySingle(n: Node, p: Property)
    requires EveryNode(n, p)
    ensures Every([n], p)
  {
    assert [n][1..] == [];
  }

  /** Every node has a tag the compiler knows. */
  predicate Supported(ts: seq<Node>) {
    Every(ts, KnownTag)
  }

  /** Every counted repetition has min <= max (or no max). */
  predicate WellFormed(ts: seq<Node>) {
    Every(ts, OrderedBounds)
  }

  /** Every counted repetition is bounded with min <= max. */
  predicate BoundedReps(ts: seq<Node>) {
    Every(ts, BoundedOrdered)
  }

  predicate RepFree(ts: seq<Node>) {
    Every(ts, NoRep)
  }

  /** A list counts as the sum of its parts: the estimate of `a` followed by
      `b` is the estimate of `a` plus that of `b`. */
  lemma {:induction false} CountConcat(a: seq<Node>, b: seq<Node>)
    ensures Count(a + b) == Count(a) + Count(b)
    decreases a
  {
    if a != [] {
      assert (a + b)[0] == a[0] && (a + b)[1..] == a[1..] + b;
      CountConcat(a[1..], b);
    } else {
      assert a + b == b;
    }
  }

  /** With min <= max in every bounded repetition, no subtree has a negative
      size (a reversed `{3,2}` can make the estimate negative). */
  lemma {:induction false} CountNonNegative(ts: seq<Node>)
    requires WellFormed(ts)
    ensures Count(ts) >= 0
    decreases ts
  {
    if ts != [] {
      CountNodeNonNegative(ts[0]);
      CountNonNegative(ts[1..]);
    }
  }

  lemma {:induction false} CountNodeNonNegative(n: Node)
    requires EveryNode(n, OrderedBounds)
    ensures CountNode(n) >= 0
    decreases n
  {
    match n
    case Union(l, r) => CountNonNegative(l); CountNonNegative(r);
    case Quest(t) => CountNonNegative(t);
    case Plus(t) => CountNonNegative(t);
    case Star(t) => CountNonNegative(t);
    case Rep(t, lo, hi) =>
      CountNonNegative(t);
      var e := Count(t);
      if hi.Some? {
        BlocksProduct(lo, e);
        BlocksProduct(hi.value - lo, e + 1);
      } else {
        BlocksProduct(lo + 1, e);
      }
    case Marked(t) => CountNonNegative(t);
    case Bracket(t) => CountNonNegative(t);
    case _ =>
  }
}

=== FILE: scanner.dfy ===
/** The scanner `execute`: try an attempt at every start offset, left to
    right, record each match as a (start, end) span and resume after it,
    so that reported matches never overlap. */
module Scanner {
  import opened Base
  import opened Bytecode
  import opened Machine

  /** One reported match: the source's pair `[startIndex, result.end]`. */
  datatype Span = Span(start: nat, end: int) {
    /** Where the scan resumes after this match: past its end, and past its
        start when the match is empty. */
    function Resume(): (r: nat)
      ensures r > start && r > end
    {
      (if start > end then start else end) + 1
    }
  }

  /** Why a scan has no list of spans: an attempt threw, or an attempt ran
      out of steps (the source would still be looping). */
  datatype ScanError = Threw(fault: Fault) | FuelExhausted(start: nat)

  /** Every span starts in `[from, |text|)`, ends at or after `start - 1`
      (a zero-width match ends one before it starts) and is not the
      "no match" value -1. */
  predicate WithinText(spans: seq<Span>, text: string, from: nat) {
    forall k | 0 <= k < |spans| ::
      && from <= spans[k].start < |text|
      && spans[k].start - 1 <= spans[k].end
      && 0 <= spans[k].end
  }

  /** Spans come in increasing order and each starts after the previous
      one ended: no two reported matches overlap. */
  predicate Ascending(spans: seq<Span>) {
    forall k | 0 < k < |spans| ::
      spans[k - 1].start < spans[k].start && spans[k - 1].end < spans[k].start
  }

  /** Each span is exactly what the attempt from its start reported. */
  predicate Reported(v: Variant, prog: seq<Instr>, text: string, fuel: nat, spans: seq<Span>) {
    forall k | 0 <= k < |spans| :: Attempt(v, prog, text, spans[k].start, fuel).End() == spans[k].end
  }

  /** No attempt from `[lo, hi)` matches. */
  predicate Quiet(v: Variant, prog: seq<Instr>, text: string, fuel: nat, lo: int, hi: int) {
    forall s: nat | lo <= s < hi :: Attempt(v, prog, text, s, fuel).End() == -1
  }

  /** Every attempt from `[lo, hi)` halts without throwing. */
  predicate Settles(v: Variant, prog: seq<Instr>, text: string, fuel: nat, lo: int, hi: int) {
    forall s: nat | lo <= s < hi ::
      !Attempt(v, prog, text, s, fuel).Crashed? && !Attempt(v, prog, text, s, fuel).OutOfFuel?
  }

  /** No match is missing from `spans`: no attempt matches from `from` up to
      the first span, between where one span resumes and the next starts,
      or after the last span up to the end of the text. */
  predicate Complete(v: Variant, prog: seq<Instr>, text: string, fuel: nat, from: int, spans: seq<Span>)
    decreases |spans|
  {
    if spans == [] then Quiet(v, prog, text, fuel, from, |text|)
    else
      && Quiet(v, prog, text, fuel, from, spans[0].start)
      && Complete(v, prog, text, fuel, spans[0].Resume(), spans[1..])
  }

  /** The loop of `execute` from `startIndex == from`, each attempt given
      `fuel` steps. */
  function ScanFrom(v: Variant, prog: seq<Instr>, text: string, from: nat, fuel: nat): (r: Result<seq<Span>, ScanError>)
    ensures r.Ok? ==> WithinText(r.value, text, from)
    decreases |text| - from
  {
    if from >= |text| then Ok([])
    else
      var o := Attempt(v, prog, text, from, fuel);
      if o.Crashed? then Err(Threw(o.fault))
      else if o.OutOfFuel? then Err(FuelExhausted(from))
      else if o.End() > -1 then
        var rest :- ScanFrom(v, prog, text, Span(from, o.End()).Resume(), fuel);
        Ok([Span(from, o.End())] + rest)
      else
        ScanFrom(v, prog, text, from + 1, fuel)
  }

  /** The spans of a scan do not overlap. */
  lemma {:induction false} ScanAscending(v: Variant, prog: seq<Instr>, text: string, from: nat, fuel: nat)
    ensures ScanFrom(v, prog, text, from, fuel).Ok? ==> Ascending(ScanFrom(v, prog, text, from, fuel).value)
    decreases |text| - from
  {
    if from < |text| {
      var o := Attempt(v, prog, text, from, fuel);
      if !o.Crashed? && !o.OutOfFuel? {
        if o.End() > -1 {
          var next := Span(from, o.End()).Resume();
          ScanAscending(v, prog, text, next, fuel);
          var rest := ScanFrom(v, prog, text, next, fuel);
          if rest.Ok? {
            AscendingCons(Span(from, o.End()), rest.value, text, next);
          }
        } else {
          ScanAscending(v, prog, text, from + 1, fuel);
        }
      }
    }
  }

  /** As written no span ends within one of the end of the text: a match
      of the last character is never reported. */
  lemma {:induction false} ScanEndsEarly(prog: seq<Instr>, text: string, from: nat, fuel: nat)
    ensures
      var r := ScanFrom(AsWritten, prog, text, from, fuel);
      r.Ok? ==> forall k | 0 <= k < |r.value| :: r.value[k].end <= |text| - 2
    decreases |text| - from
  {
    if from < |text| {
      var o := Attempt(AsWritten, prog, text, from, fuel);
      if !o.Crashed? && !o.OutOfFuel? {
        if o.End() > -1 {
          var next := Span(from, o.End()).Resume();
          ScanEndsEarly(prog, text, next, fuel);
          var r := ScanFrom(AsWritten, prog, text, from, fuel);
          if r.Ok? {
            var rest := ScanFrom(AsWritten, prog, text, next, fuel).value;
            assert forall j | 0 <= j < |rest| :: rest[j].end <= |text| - 2;
            assert r.value == [Span(from, o.End())] + rest;
            assert o.End() <= |text| - 2;
            forall k | 0 <= k < |r.value|
              ensures r.value[k].end <= |text| - 2
            {
              if k == 0 {
                assert r.value[k] == Span(from, o.End());
              } else {
                assert r.value[k] == rest[k - 1];
              }
            }
          }
        } else {
          ScanEndsEarly(prog, text, from + 1, fuel);
        }
      }
    }
  }

  lemma AscendingCons(first: Span, rest: seq<Span>, text: string, next: nat)
    requires Ascending(rest) && WithinText(rest, text, next)
    requires first.start < next && first.end < next
    ensures Ascending([first] + rest)
  {
    var spans := [first] + rest;
    forall k | 0 < k < |spans|
      ensures spans[k - 1].start < spans[k].start && spans[k - 1].end < spans[k].start
    {
      assert spans[k] == rest[k - 1];
    }
  }

  /** Each span of a scan is what the attempt from its start reported. */
  lemma {:induction false} ScanReported(v: Variant, prog: seq<Instr>, text: string, from: nat, fuel: nat)
    ensures
      var r := ScanFrom(v, prog, text, from, fuel);
      r.Ok? ==> Reported(v, prog, text, fuel, r.value)
    decreases |text| - from
  {
    if from < |text| {
      var o := Attempt(v, prog, text, from, fuel);
      if !o.Crashed? && !o.OutOfFuel? {
        if o.End() > -1 {
          var next := Span(from, o.End()).Resume();
          ScanReported(v, prog, text, next, fuel);
        } else {
          ScanReported(v, prog, text, from + 1, fuel);
        }
      }
    }
  }

  /** A scan skips no matching start: the first span is the leftmost match
      at or after `from`, and an empty list means no attempt in
      `[from, |text|)` matched. */
  lemma {:induction false} ScanLeftmost(v: Variant, prog: seq<Instr>, text: string, from: nat, fuel: nat)
    ensures
      var r := ScanFrom(v, prog, text, from, fuel);
      && (r.Ok? && r.value == [] ==> Quiet(v, prog, text, fuel, from, |text|))
      && (r.Ok? && r.value != [] ==> Quiet(v, prog, text, fuel, from, r.value[0].start))
    decreases |text| - from
  {
    if from < |text| {
      var o := Attempt(v, prog, text, from, fuel);
      if !o.Crashed? && !o.OutOfFuel? && o.End() == -1 {
        ScanLeftmost(v, prog, text, from + 1, fuel);
      }
    }
  }

  /** A scan reports every match it passes: no attempt from a start it
      skipped (before the first span, between two spans, after the last)
      matches. */
  lemma {:induction false} ScanComplete(v: Variant, prog: seq<Instr>, text: string, from: nat, fuel: nat)
    ensures
      var r := ScanFrom(v, prog, text, from, fuel);
      r.Ok? ==> Complete(v, prog, text, fuel, from, r.value)
    decreases |text| - from
  {
    if from < |text| {
      var o := Attempt(v, prog, text, from, fuel);
      if !o.Crashed? && !o.OutOfFuel? {
        if o.End() > -1 {
          var first := Span(from, o.End());
          ScanComplete(v, prog, text, first.Resume(), fuel);
          var r := ScanFrom(v, prog, text, from, fuel);
          if r.Ok? {
            assert r.value[0] == first;
            assert r.value[1..] == ScanFrom(v, prog, text, first.Resume(), fuel).value;
          }
        } else {
          ScanComplete(v, prog, text, from + 1, fuel);
          var r := ScanFrom(v, prog, text, from, fuel);
          if r.Ok? {
            CompleteEarlier(v, prog, text, fuel, from, r.value);
          }
        }
      }
    }
  }

  lemma CompleteEarlier(v: Variant, prog: seq<Instr>, text: string, fuel: nat, from: nat, spans: seq<Span>)
    requires Attempt(v, prog, text, from, fuel).End() == -1
    requires Complete(v, prog, text, fuel, from + 1, spans)
    ensures Complete(v, prog, text, fuel, from, spans)
  {
  }

  /** A scan fails only because of an attempt from a start it tried: it
      runs out of fuel at that start, or reports the fault that attempt
      threw. When every attempt settles, the scan succeeds. */
  lemma {:induction false} ScanErrors(v: Variant, prog: seq<Instr>, text: string, from: nat, fuel: nat)
    ensures
      var r := ScanFrom(v, prog, text, from, fuel);
      && (r.Err? && r.error.FuelExhausted? ==>
            from <= r.error.start < |text| && Attempt(v, prog, text, r.error.start, fuel).OutOfFuel?)
      && (r.Err? && r.error.Threw? ==>
            exists s: nat | from <= s < |text| :: Attempt(v, prog, text, s, fuel) == Crashed(r.error.fault))
      && (Settles(v, prog, text, fuel, from, |text|) ==> r.Ok?)
    decreases |text| - from
  {
    if from < |text| {
      var o := Attempt(v, prog, text, from, fuel);
      if !o.Crashed? && !o.OutOfFuel? {
        if o.End() > -1 {
          ScanErrors(v, prog, text, Span(from, o.End()).Resume(), fuel);
        } else {
          ScanErrors(v, prog, text, from + 1, fuel);
        }
      }
    }
  }

  /** `execute(text)`: the scan from offset 0. */
  function Execute(v: Variant, prog: seq<Instr>, text: string, fuel: nat): (r: Result<seq<Span>, ScanError>)
    ensures text == [] ==> r == Ok([])
    ensures r.Ok? ==> WithinText(r.value, text, 0) && Ascending(r.value) && Reported(v, prog, text, fuel, r.value)
    ensures r.Ok? && r.value == [] ==> Quiet(v, prog, text, fuel, 0, |text|)
    ensures r.Ok? ==> Complete(v, prog, text, fuel, 0, r.value)
    ensures r.Err? && r.error.FuelExhausted? ==>
              r.error.start < |text| && Attempt(v, prog, text, r.error.start, fuel).OutOfFuel?
    ensures r.Err? && r.error.Threw? ==>
              exists s: nat | s < |text| :: Attempt(v, prog, text, s, fuel) == Crashed(r.error.fault)
    ensures Settles(v, prog, text, fuel, 0, |text|) ==> r.Ok?
  {
    ScanAscending(v, prog, text, 0, fuel);
    ScanReported(v, prog, text, 0, fuel);
    ScanLeftmost(v, prog, text, 0, fuel);
    ScanComplete(v, prog, text, 0, fuel);
    ScanErrors(v, prog, text, 0, fuel);
    ScanFrom(v, prog, text, 0, fuel)
  }
}
